=== FILE: README.md ===
# csCustomElement, modelled in Dafny

A Dafny model of the `csCustomElement` AngularJS service. The service wraps
an AngularJS component in a custom element so that an Elm program can drive
it: property assignments on the element are decoded into the component's
scope, and the component's callbacks come back out as DOM events.

The model covers:

- **Decoders** (`decode.dfy`): the `helper.decode(options)` factory, the
  binding function it returns, and the `set` accessor that binding
  function builds. The accessor handles the null value, the type assertion,
  the value transformation, the equality check and the digest request. The
  six built-in decoders and `encode.identity` are here too.
- **Definition** (`create.dfy`): `create(componentName, options)`. It
  checks the options in their fixed order and keeps the registry of
  defined names. It builds the prototype accessors through `extendPrototype`
  and `hasGetterOrSetter`, and it validates custom bindings and event
  injectables.
- **Wiring** (`wiring.dfy`): from `connectedCallback`, the element that
  hosts the AngularJS component and every attribute set on it, in order.
  Also the `detail` of the custom event sent when the component calls one
  of its event callbacks.
- **Values** (`js.dfy`, `names.dfy`): the JavaScript values and lodash
  helpers the service relies on. `_.isEqual` is `DeepEqual`; a sequence of
  `csAssert.ok` calls is `FirstFailure`; a `forEach` whose body may throw is
  `Traverse`. The name conversions `_.kebabCase` and `_.camelCase` are here,
  with their round trips, together with AngularJS's normalisation of a tag
  or attribute name (`DirectiveNormalize`: drop a leading `x-` or `data-`,
  then camel-case), which decides whether a generated attribute reaches
  the component.

Exceptions are values: a `Result` is either `Ok(value)` or `Err(error)`.
`Error(message)` stands for what `csAssert.ok` and `throw new Error` raise;
`TypeError` stands for reading a property of `undefined` or `null`. User
functions (assertions, equality checks, transformations, custom binding
functions and encoders) are a parameter `rt: UserCode`, which gives each
function's result or exception for its arguments. They are therefore pure:
the same arguments always give the same result, a call has no other effect,
and no call depends on `this`. AngularJS's
`$injector.has` becomes the set of known directive names. The custom
element's `$scope.vm` is a map from property name to value.

## Model

| member | source | states |
|---|---|---|
| Js.FirstFailure | src/cs-custom-element.service.js:761-767 | consecutive `csAssert.ok` calls: no error exactly when every check holds, otherwise the message of the first failing check |
| Js.Traverse | src/cs-custom-element.service.js:602-658 | a `forEach` whose body may throw succeeds exactly when every element's step succeeds, with the results in order; otherwise it throws what the first failing step threw, and every earlier step succeeded |
| Js.DeepEqualReflexive | src/cs-custom-element.service.js:759 | `_.isEqual(v, v)` holds for every value JavaScript can build (no object repeats a key), nested arrays and objects included |
| Js.LookupDistinct | src/cs-custom-element.service.js:403-409 | reading a key of an object without repeated keys gives the value stored under that key, at any position |
| Js.LookupMissing | src/cs-custom-element.service.js:403-409 | reading a key the options object does not own gives `undefined`, so every absent option is treated as not given |
| Names.KebabCase | src/cs-custom-element.service.js:508 | the attribute name `_.kebabCase` produces contains no upper-case letter |
| Names.CamelOfKebab | src/cs-custom-element.service.js:505-519 | for a property name lodash splits at its capitals (a lower-case first letter, ASCII letters only, no two capitals in a row) whose attribute name carries no `x-` or `data-` prefix: camel-casing the kebab-cased attribute name gives the property back, and so does AngularJS's normalisation of that attribute name |
| Names.KebabOfCamel | src/cs-custom-element.service.js:386-400 | for a component name of lower-case words joined by single hyphens, with no one-letter word between two hyphens and without an `x-` or `data-` prefix: kebab-casing the camel-cased directive name gives the component name back, and AngularJS normalises the tag (or the directive attribute, lines 480-485) to exactly the directive name that `create` looked up |
| Decode.MakeDecoder | src/cs-custom-element.service.js:757-775 | the factory succeeds exactly when the options are valid, and then returns the binding function for those options. The checks fail in source order: transformation (a function or absent), equality check (`options.equalityCheck` or `_.isEqual`), assertion, type name. Options that are `undefined` or `null` raise a `TypeError` |
| Decode.Bind | src/cs-custom-element.service.js:775-778 | the binding function succeeds exactly for a string binding name, and then returns an object whose only key is `set`, holding the setter for that name; any other argument fails with the binding-name message |
| Decode.Call | src/cs-custom-element.service.js:782-790 | a library function never throws; a decoder called as a function is the binding function applied to its first argument; a `set` accessor called without a receiver never completes, and with `null` it fails at once on `this.$scope` |
| Decode.UnboundSetter | src/cs-custom-element.service.js:782-795 | a `set` accessor called without a receiver (for instance handed to `create` as a binding function, line 684) still runs the assertion first: the assertion's exception, the typed error for a rejected value, or the transformation's exception comes out; only an accepted value reaches `this.$scope` and the `TypeError` |
| Decode.Set | src/cs-custom-element.service.js:782-808 | only the bound property changes, and only when a digest is requested. `null` stores the configured null value (`undefined` when it is not configured) and always digests. A value the assertion rejects throws `Expected a <type> or null, but got <typeof value>`. An exception from the assertion, the transformation or the equality check propagates with nothing changed. Otherwise the transformed value is stored, with a digest, exactly when the equality check against the current value returns `false`; any other answer changes nothing and throws nothing |
| Decode.SetIdempotent | src/cs-custom-element.service.js:789-795 | for user functions that are pure: assigning the same accepted value twice in a row, the second assignment changes nothing and requests no digest, provided the equality check is reflexive on the stored value |
| Decode.BuiltinDecoder | src/cs-custom-element.service.js:41-120 | each built-in decoder (`identity`, `boolean`, `integer`, `string`, `object`, `array`) is the factory applied to its assertion and type name, and the factory accepts those options |
| Decode.BuiltinSetIdempotent | src/cs-custom-element.service.js:41-120 | a built-in decoder never throws on a non-null value its assertion accepts, and ignores the same value assigned a second time |
| Decode.EncodeIdentityKeepsValue | src/cs-custom-element.service.js:132 | `encode.identity` returns its argument unchanged, `undefined` included |
| Decode.StringDecoderRejectsNumber | spec/cs-custom-element.service.spec.js:767-786 | assigning `123` through the string decoder throws `Expected a string or null, but got number` and leaves the scope unchanged |
| Create.AccessorShape | src/cs-custom-element.service.js:699-703 | for keys that do not repeat, the accepted key lists are exactly those of one or two keys, each `get` or `set` |
| Create.HasGetterOrSetter | src/cs-custom-element.service.js:698-709 | accepts exactly the plain objects whose own keys are a getter, a setter or both, and nothing else. Any other object or value fails with the binding message; `undefined` or `null` raise a `TypeError` from `Object.keys` |
| Create.ExtendPrototype | src/cs-custom-element.service.js:678-690 | a value that is neither a function nor a plain object fails with the caller's message. A plain object that is not an accessor fails with the binding message. A binding function's exception propagates; what it returns must be an accessor, else the binding message (a `TypeError` for `undefined` or `null`). On success the stored value is the object itself or what the function returned |
| Create.DecoderIsBinding | src/cs-custom-element.service.js:678-690 | every binding function the decode factory makes is accepted by `extendPrototype` and stores the `{ set }` accessor for that binding |
| Create.CheckCustomBinding | src/cs-custom-element.service.js:625-641 | a custom binding must be an object with string `attribute` and `attributeValue` and an accepted `decode`; the failures come in that order, each with its message, and a failing `decode` throws what `extendPrototype` threw. On success the binding keeps its name, attribute and attribute value, with the accessor `extendPrototype` stored |
| Create.CheckEvent | src/cs-custom-element.service.js:644-658 | an event must be an object, and every injectable must be a function or an object with an `encode` function and a string `argumentName`; the failures come in that order, each with its message. On success each injectable keeps its key and order; a function is its own encoder, an object gives its `encode` and `argumentName` |
| Create.InterpolationAccessors | src/cs-custom-element.service.js:600-605 | each interpolation gets the accessor that `decode.string` makes for its name |
| Create.ExtendEntry | src/cs-custom-element.service.js:607-623 | one scope or binding entry succeeds exactly when `extendPrototype` does, storing its accessor under the entry's key, and otherwise throws what `extendPrototype` threw |
| Create.AccessorsFor | src/cs-custom-element.service.js:607-623 | the scope or binding entries, in order: the step succeeds exactly when every entry is accepted, storing each entry's accessor under its key; otherwise it throws the error of the first entry `extendPrototype` rejects |
| Create.CustomBindingsFor | src/cs-custom-element.service.js:625-642 | the custom bindings, in order: the step succeeds exactly when every entry passes, each keeping its name, attribute and attribute value with its accessor; otherwise it throws the error of the first failing entry |
| Create.EventsFor | src/cs-custom-element.service.js:644-659 | the events, in order: the step succeeds exactly when every event passes, each checked as `CheckEvent` does; otherwise it throws the error of the first failing event |
| Create.Prototype | src/cs-custom-element.service.js:600-641 | the prototype holds the interpolation accessors, then the scope, binding and custom-binding accessors, each at its position and under its own name |
| Create.Define | src/cs-custom-element.service.js:600-659 | the part of `create` after the name is recorded succeeds exactly when every entry is valid. The definition carries the name, the options as given (attribute directive, attributes, interpolations, binding keys, checked custom bindings and events) and the entry prototype. A failure is that of the first failing entry, checking scope, then bindings, custom bindings and events; interpolations cannot fail |
| Create.DefinedPrototype | src/cs-custom-element.service.js:600-641 | against the raw options: the prototype's keys are the interpolation names, then the scope, binding and custom-binding keys, in order; each value is what `decode.string` or `extendPrototype` produced for that entry |
| Create.Create | src/cs-custom-element.service.js:385-444 | a non-string name, an already registered name, and each later top-level check fail in source order with their messages. The registry grows by the name exactly when those checks pass, whatever happens after. Past those checks the outcome, error included, is that of the entry stage (`Define`) |
| Create.FailedCreateBlocksName | src/cs-custom-element.service.js:444 | a `create` that passes the top-level checks but fails on an entry still records the name, so any retry under that name fails as a duplicate |
| Create.CreateAtomic | src/cs-custom-element.service.js:444 | corrected `create`: same outcome, but the name is recorded only when the definition succeeds |
| Create.AtomicCreateAllowsRetry | src/cs-custom-element.service.js:444 | with the corrected `create`, a failed call leaves the registry as it was, and a retry through the corrected `create` with admissible, valid options succeeds and records the name |
| Wiring.HostAttrs | src/cs-custom-element.service.js:494-501 | exactly the listed attributes that the custom element carries are copied, with their values, and no other |
| Wiring.EventArgumentNames | src/cs-custom-element.service.js:537-546 | against the raw event object: the callback passes one argument per injectable, in order, the custom injectable's `argumentName` and otherwise the injectable's key |
| Wiring.JoinPositions | src/cs-custom-element.service.js:537-546 | `join(', ')` lays the names out in order: each at its offset, a separator after every name but the last, and the last name ending the string |
| Wiring.CallbackListsArguments | src/cs-custom-element.service.js:537-570 | for any positive number of injectables, the event attribute's value is `vm.<event>(`, then each argument name at its position with `, ` between them, then `)` |
| Wiring.CallbackWithoutArguments | src/cs-custom-element.service.js:537-570 | an event without injectables gets the callback expression `vm.<event>()` |
| Wiring.Wire | src/cs-custom-element.service.js:478-570 | the tag is the component name, or the attribute directive's element. In the second case the first attribute is the component name with `attributeValue` or `''`. The attributes follow in the order they are set: the listed attributes the custom element carries, then one per interpolation, binding, custom binding and event, each group in the order of its option, and nothing after them |
| Wiring.WireSetsEveryOption | src/cs-custom-element.service.js:494-570 | every listed attribute the custom element carries is set with its value, and so is the attribute of every interpolation, binding, custom binding and event |
| Wiring.WireSetsNothingElse | src/cs-custom-element.service.js:478-570 | every attribute set is the directive attribute (named after the component), a listed attribute the custom element carries with its value, or the attribute of one interpolation, binding, custom binding or event |
| Wiring.WiredPropertiesResolve | src/cs-custom-element.service.js:505-570 | every interpolation, binding or event whose name satisfies `IsPropertyName` has an attribute on the wired element that AngularJS normalises back to that name |
| Wiring.GeneratedNamesResolve | src/cs-custom-element.service.js:505-570 | the attribute names generated for interpolations, bindings and events normalise, as AngularJS does it, back to a name that satisfies `IsPropertyName` |
| Wiring.EventArguments | src/cs-custom-element.service.js:537-570 | with two injectables the callback expression is `vm.<event>(<first>, <second>)` |
| Wiring.NullForUndefined | src/cs-custom-element.service.js:561-563 | `undefined` becomes `null`; every other value is kept |
| Wiring.Detail | src/cs-custom-element.service.js:549-567 | the event detail has one entry per injectable, in order. Each entry is that injectable's encoder applied to the argument at its position, with `undefined` sent as `null`. Building the detail throws exactly when an encoder throws: the first one to throw, in injectable order |
| Wiring.DetailShape | src/cs-custom-element.service.js:549-567 | the detail's keys are the injectables' keys in order, and no value is `undefined` |
| Wiring.DetailReadsDeclaredPositions | src/cs-custom-element.service.js:553-558 | the detail depends on the call's arguments only at the injectables' positions |
| Wiring.ExtraArgumentsIgnored | src/cs-custom-element.service.js:553-558 | arguments beyond the injectables do not change the detail |
| Wiring.MissingArgumentIsUndefined | src/cs-custom-element.service.js:553-558 | a missing argument gives the same detail as an explicit `undefined` |
| Wiring.IdentityDetail | src/cs-custom-element.service.js:549-567 | with `encode.identity` everywhere the detail never throws, and its values are the arguments with `undefined` sent as `null` |
| Wiring.MixedInjectablesCallback | spec/cs-custom-element.service.spec.js:523-547 | an event with a plain injectable and a custom one, as `csOnChange` with `model` and `otherValue`, gets the callback expression `vm.<event>(<key>, <argumentName>)`: `vm.csOnChange(model, vm.otherValue)` |
| Wiring.OnChangeDetailExample | spec/cs-custom-element.service.spec.js:549-591 | called with one argument, the detail is `{ model, otherValue: null }`. Called with two or more, it is `{ model, otherValue }` and the extra arguments are dropped |

## Left out

- The DOM and AngularJS runtime are not modelled: `querySelector`, the
  check for a `cs-custom-element-component` child, transclusion, `$compile`,
  `$rootScope.$new`, `$timeout` and `disconnectedCallback`. The model stops
  at the element and attributes that would be compiled.
- `extendVm` is not part of this model. The custom element's `$scope.vm` is
  a plain map.
- `Object.create(HTMLElement.prototype, prototype)` and
  `$window.customElements.define` (lines 661-665) are not modelled, so a
  successful `Create` promises neither that the browser accepts the element
  name nor that it accepts the prototype. `hasGetterOrSetter` (lines
  698-709) looks at key names only, so an accessor such as `{ get: 1 }`
  passes the service's checks and the model's, and `Object.create` then
  throws a `TypeError` because the getter is not a function; the model's
  `Create` reports success there.
- The digest request (`$scope.$evalAsync`) is a flag in the result of
  `Set`, not a call.
- `Decode.Call`: a `set` accessor called without a receiver throws a
  `TypeError` once it reaches `this.$scope`. The message text is that of
  current V8 engines. A `set` whose options are not valid decode options
  never comes out of a successful `decode`; the model gives it the same
  `TypeError` straight away.
- `Names.KebabCase` and `Names.CamelCase` are simplified to ASCII names
  that split words only at upper-case letters and hyphens. Lodash also
  splits at digits, underscores, spaces and Unicode case changes. Three
  more differences: a leading capital gives a leading hyphen here (`CsApi`
  becomes `-cs-api`, where lodash gives `cs-api`); each capital of an
  acronym starts a word here (`csURL` becomes `cs-u-r-l`, where lodash
  gives `cs-url`); and `_.camelCase` lower-cases the rest of each word, so
  lodash turns `Cs-Conta` into `csConta` where the model gives `CsConta`.
  The last difference changes the directive name `create` looks up
  (line 386) and the text of the missing-component message for such names.
  The round-trip lemmas (`CamelOfKebab`, `KebabOfCamel`) are stated only
  for names on which the simplified conversions and lodash agree
  (`IsPropertyName`, `IsComponentName`); names with digits, such as
  `cs-conta-component-24`, are outside them, and so are component names
  with a one-letter word between two hyphens: lodash reads `csAB`, the
  directive name of `cs-a-b`, as the words `cs` and `AB`, so its kebab-case
  is `cs-ab`.
- `Names.DirectiveNormalize` models AngularJS's name normalisation for
  lower-case names with hyphens only. The `:` and `_` separators and the
  case-insensitive prefix match are not modelled.
- `WiredPropertiesResolve`: a property such as `dataSource` or `xValue` is
  wired as `data-source` or `x-value`, which AngularJS strips to `source` or
  `value`, so the binding is never reached. The service does not reject
  such names. The lemma excludes them (`IsPropertyName`), and the model
  keeps wiring them as the service does.
- `EventsFor`: lodash's `_.forEach` and `_.reduce` treat an object with a
  non-negative integer `length` property as array-like and visit the
  indices below `length` instead of the own keys. So `events: { length: 0 }`
  passes the event checks in the service, while the model checks the
  `length` entry as an event and rejects it. The same holds for an event
  object with such a `length` (the `_.reduce` at line 648, `CheckEvent`),
  and for the `_.forEach` over the events in `connectedCallback` (line 537,
  the event group of `Wire`). Custom bindings are not affected: `create`
  walks them with `Object.keys` and requires each value to be a plain
  object (lines 627-628), so a `length` entry is never an integer and the
  `_.forEach` at line 526 visits exactly the own keys.
- `Prototype`: the service's prototype is a JavaScript object that starts
  with `constructor`, `connectedCallback` and `disconnectedCallback`. An
  interpolation, scope entry, binding or custom binding with one of those
  names replaces that descriptor, and a name used twice (an interpolation
  that is also a binding, say) keeps only the later accessor. The model's
  prototype lists every accessor in assignment order, so the last entry
  with a name is the one the browser would see; the three callbacks are
  not part of it.
- Numbers are reals: `NaN`, `Infinity` and `-0` are not modelled.
- `_.isEqual` is modelled on arrays, plain objects and primitives. Class
  instances and functions compare by their model identity, and cyclic
  structures cannot be expressed.
- Property reads on values other than plain objects give `undefined`.
  This holds for every key `create` reads, because it first checks that
  each options object, custom binding, event and custom injectable it reads
  from is a plain object (lines 401, 411-440, 628, 646 and 650).
  Inherited properties in general are not modelled.
- `Decode.MakeDecoder`: `decode(options)` (lines 758-771) reads
  `valueTransformation`, `equalityCheck`, `assert`, `type` and `nullValue`
  from any value, so a class instance or a function that carries its own
  `assert` and `type` is accepted by the service. The model reads
  `undefined` from class instances and functions and rejects such options
  with `Assertion should be a function`; only plain objects are read as
  options.
- `Decode.SetIdempotent`: user functions are modelled as pure functions
  of their arguments (`rt: UserCode`), so the lemma covers only such
  functions. The second `set` runs the assertion and the transformation
  again (lines 789-795); a transformation that returns a fresh object each
  time, such as `function () { return new Date(); }` with `_.isEqual`,
  makes the second assignment store the new object and digest again.
  Stateful user functions, and functions that read `this`, are not
  modelled anywhere.
- Mutating the options object after `decode` or `create` has returned is
  not modelled: options are immutable values.
- Wiring lists the attribute assignments in the order they are made
  (`Wiring.Wire` states that order). Two assignments to the same attribute
  name are not merged: in the DOM the later one wins.
- `encode.identity` is documented as turning `undefined` into `null`, but
  the code is `_.identity`. The model follows the code
  (`Decode.EncodeIdentityKeepsValue`). The conversion to `null` happens
  where the event detail is built (`Wiring.NullForUndefined`).

## Findings

| source | as written | input that shows it | evidently intended | confidence | as-written member | corrected member |
|---|---|---|---|---|---|---|
| src/cs-custom-element.service.js:444 | `create` records the component name in its registry before the per-entry checks (lines 600-659) run | `create('cs-a', { bindings: { csModel: {} } })` throws the accessor message; a second `create('cs-a', { bindings: { csModel: decode.string } })` then throws `Component with name cs-a already registered`, although no element was ever defined | a `create` that throws leaves the name free | medium, not executed | Create.FailedCreateBlocksName | Create.AtomicCreateAllowsRetry |

=== FILE: create.dfy ===
/**
  `csCustomElement.create(componentName, options)` up to the point where it
  hands the finished prototype to the browser: the ordered option checks,
  the registry of component names, and the per-entry checks that extend the
  custom element's prototype with accessors (`extendPrototype`,
  `hasGetterOrSetter`).

  The registry is the service's private `customElements` object; a call
  yields the registry afterwards and either the element definition or the
  error it threw. Which directives exist (`$injector.has`) is a parameter.
 */
module Create {
  import opened Js
  import opened Names
  import opened Decode

  const MsgName := "Component name should be a string"
  const MsgOptions := "Options should be an object"
  const MsgAttributeDirective :=
    "Options attribute directive should be an object with required \"element\" and optional \"attributeValue\" string properties"
  const MsgAttributes := "Options attributes should be an array of strings"
  const MsgInterpolations := "Options interpolations should be an array of strings"
  const MsgScope := "Options scope should be an object"
  const MsgBindings := "Options bindings should be an object"
  const MsgCustomBindings := "Options custom bindings should be an object"
  const MsgEvents := "Options events should be an object"
  const MsgScopeValue := "Value of scope should be a function or an object"
  const MsgBindingValue := "Value of binding should be a function or an object"
  const MsgCustomBindingObject := "Value of custom binding should be an object"
  const MsgCustomBindingAttribute :=
    "Value of custom binding should have a string value of \"attribute\" property"
  const MsgCustomBindingAttributeValue :=
    "Value of custom binding should have a string value of \"attributeValue\" property"
  const MsgCustomBindingDecode :=
    "Value of custom binding should have a \"decode\" method or property with object type"
  const MsgEventValue := "Value of event should be an object with injectables"
  const MsgInjectable :=
    "Value of injectable should be either a function or an object with encode function and argument name"

  function MsgRegistered(name: string): string {
    "Component with name " + name + " already registered"
  }

  function MsgNoComponent(directive: string): string {
    "There is no component defined with name: " + directive
  }

  function MsgAccessor(name: string): string {
    "Binding \"" + name + "\" should be have either setter or getter or both"
  }

  // ---------------------------------------------------------------------
  // Accessors: hasGetterOrSetter and extendPrototype

  /** The key lists `hasGetterOrSetter` accepts. */
  predicate AccessorKeys(ks: seq<string>) {
    ks == ["set", "get"] || ks == ["get", "set"] || ks == ["get"] || ks == ["set"]
  }

  /** A property descriptor with a getter, a setter or both, and nothing else. */
  predicate IsAccessor(v: JsValue) {
    v.Obj? && AccessorKeys(Keys(v.props))
  }

  /** For keys of a real object (no repeats) the accepted lists are exactly
      those of one or two keys, each of them `get` or `set`; a third key,
      or any other key, is refused. */
  lemma AccessorShape(ks: seq<string>)
    requires forall i, j | 0 <= i < j < |ks| :: ks[i] != ks[j]
    ensures AccessorKeys(ks) <==> 1 <= |ks| <= 2 && forall i | 0 <= i < |ks| :: ks[i] == "get" || ks[i] == "set"
  {
    if |ks| == 2 && forall i | 0 <= i < |ks| :: ks[i] == "get" || ks[i] == "set" {
      assert ks == [ks[0], ks[1]];
    }
  }

  /** `hasGetterOrSetter(property, bindingName)`: passes the property on when
      it is an accessor; `Object.keys` of `undefined` or `null` throws. */
  function HasGetterOrSetter(property: JsValue, bindingName: string): (r: Result<JsValue>)
    ensures r.Ok? <==> IsAccessor(property)
    ensures r.Ok? ==> r.value == property
    ensures (property == Undefined || property == Null) ==> r.Err? && r.error.TypeError?
    ensures (property != Undefined && property != Null && !IsAccessor(property))
              ==> r == Err(Error(MsgAccessor(bindingName)))
  {
    if property == Undefined || property == Null then
      Err(TypeError("Cannot convert undefined or null to object"))
    else if IsPlainObject(property) && AccessorKeys(Keys(property.props)) then
      Ok(property)
    else
      Err(Error(MsgAccessor(bindingName)))
  }

  /** What `extendPrototype` stores: the value itself, or what the function
      returns when called with the binding name. */
  function Produced(rt: UserCode, bindingFunction: JsValue, binding: string): Result<JsValue> {
    if IsFunction(bindingFunction) then Call(rt, bindingFunction.f, [Str(binding)]) else Ok(bindingFunction)
  }

  /** `extendPrototype(bindingFunction, binding, prototype, error)`: the
      accessor to store under `binding`, or what was thrown. */
  function ExtendPrototype(rt: UserCode, bindingFunction: JsValue, binding: string, error: string): (r: Result<JsValue>)
    ensures !IsFunction(bindingFunction) && !IsPlainObject(bindingFunction) ==> r == Err(Error(error))
    ensures r.Ok? <==>
              && (IsFunction(bindingFunction) || IsPlainObject(bindingFunction))
              && Produced(rt, bindingFunction, binding).Ok?
              && IsAccessor(Produced(rt, bindingFunction, binding).value)
    ensures r.Ok? ==> r.value == Produced(rt, bindingFunction, binding).value
    ensures (IsPlainObject(bindingFunction) && !IsAccessor(bindingFunction))
              ==> r == Err(Error(MsgAccessor(binding)))
    // a binding function's exception propagates
    ensures (IsFunction(bindingFunction) && Produced(rt, bindingFunction, binding).Err?)
              ==> r == Err(Produced(rt, bindingFunction, binding).error)
    // what a binding function returns must be an accessor too; `Object.keys`
    // throws on `undefined` and `null`
    ensures (IsFunction(bindingFunction) && Produced(rt, bindingFunction, binding).Ok?) ==>
              var property := Produced(rt, bindingFunction, binding).value;
              && ((property == Undefined || property == Null) ==> r.Err? && r.error.TypeError?)
              && ((property != Undefined && property != Null && !IsAccessor(property))
                    ==> r == Err(Error(MsgAccessor(binding))))
  {
    if !IsFunction(bindingFunction) && !IsPlainObject(bindingFunction) then Err(Error(error))
    else
      var property :- Produced(rt, bindingFunction, binding);
      HasGetterOrSetter(property, binding)
  }

  /** Every decoder the factory makes is accepted as a binding, and stores the
      `{ set }` accessor for that binding. */
  lemma DecoderIsBinding(rt: UserCode, o: JsValue, binding: string, error: string)
    requires MakeDecoder(o).Ok?
    ensures ExtendPrototype(rt, MakeDecoder(o).value, binding, error) == Ok(Accessor(o, binding))
  {
    assert Keys(Accessor(o, binding).props) == ["set"];
  }

  // ---------------------------------------------------------------------
  // Options

  /** `options.attributeDirective` is absent, or an object with a string
      `element` and an optional string `attributeValue`. */
  predicate AttributeDirectiveOk(ad: JsValue) {
    || (&& IsPlainObject(ad)
        && IsString(Get(ad, "element"))
        && (IsString(Get(ad, "attributeValue")) || Get(ad, "attributeValue") == Undefined))
    || ad == Undefined
  }

  predicate StringListOk(v: JsValue) { IsStringArray(v) || v == Undefined }

  predicate ObjectOk(v: JsValue) { IsPlainObject(v) || v == Undefined }

  /** `options || {}` */
  function Normalize(options: JsValue): JsValue {
    if Truthy(options) then options else Obj([])
  }

  /** The option checks, in the order `create` makes them. */
  function OptionChecks(opts: JsValue): seq<Check> {
    [ Check(IsPlainObject(opts), MsgOptions),
      Check(AttributeDirectiveOk(Get(opts, "attributeDirective")), MsgAttributeDirective),
      Check(StringListOk(Get(opts, "attributes")), MsgAttributes),
      Check(StringListOk(Get(opts, "interpolations")), MsgInterpolations),
      Check(ObjectOk(Get(opts, "scope")), MsgScope),
      Check(ObjectOk(Get(opts, "bindings")), MsgBindings),
      Check(ObjectOk(Get(opts, "customBindings")), MsgCustomBindings),
      Check(ObjectOk(Get(opts, "events")), MsgEvents) ]
  }

  /** `_.camelCase(componentName) + 'Directive'` */
  function DirectiveName(name: string): string { CamelCase(name) + "Directive" }

  /** Every check `create` makes before it records the name, in order. */
  function TopLevelChecks(registry: set<string>, directives: set<string>, name: string, opts: JsValue): seq<Check> {
    [ Check(name !in registry, MsgRegistered(name)),
      Check(DirectiveName(name) in directives, MsgNoComponent(CamelCase(name))) ]
    + OptionChecks(opts)
  }

  /** The options' fields have the shapes `create` demands. */
  predicate OptionsShapeOk(opts: JsValue) {
    && IsPlainObject(opts)
    && AttributeDirectiveOk(Get(opts, "attributeDirective"))
    && StringListOk(Get(opts, "attributes"))
    && StringListOk(Get(opts, "interpolations"))
    && ObjectOk(Get(opts, "scope"))
    && ObjectOk(Get(opts, "bindings"))
    && ObjectOk(Get(opts, "customBindings"))
    && ObjectOk(Get(opts, "events"))
  }

  lemma OptionChecksPass(opts: JsValue)
    ensures (forall i | 0 <= i < |OptionChecks(opts)| :: OptionChecks(opts)[i].ok) <==> OptionsShapeOk(opts)
  {
    var cs := OptionChecks(opts);
    if forall i | 0 <= i < |cs| :: cs[i].ok {
      assert cs[0].ok && cs[1].ok && cs[2].ok && cs[3].ok;
      assert cs[4].ok && cs[5].ok && cs[6].ok && cs[7].ok;
    }
  }

  /** Everything `create` demands before it records the name. */
  predicate Admissible(registry: set<string>, directives: set<string>, componentName: JsValue, options: JsValue) {
    && IsString(componentName)
    && componentName.s !in registry
    && DirectiveName(componentName.s) in directives
    && OptionsShapeOk(Normalize(options))
  }

  // ---------------------------------------------------------------------
  // The validated options, as `connectedCallback` reads them

  datatype AttributeDirective = AttributeDirective(element: string, attributeValue: Option<string>)

  datatype CustomBinding = CustomBinding(name: string, attribute: string, attributeValue: string)

  /** An event injectable: an encode function, and for a custom injectable
      the argument name to pass instead of the injectable's own name. */
  datatype Injectable = Injectable(key: string, encode: JsFunction, argumentName: Option<string>)

  datatype Event = Event(name: string, injectables: seq<Injectable>)

  datatype Options = Options(
    attributeDirective: Option<AttributeDirective>,
    attributes: Option<seq<string>>,
    interpolations: Option<seq<string>>,
    bindings: Option<seq<string>>,
    customBindings: Option<seq<CustomBinding>>,
    events: Option<seq<Event>>)

  /** What a successful `create` leaves behind: the validated options and the
      accessors on the custom element's prototype, in assignment order. */
  datatype Definition = Definition(name: string, options: Options, prototype: seq<Prop>)

  /** The own properties of an optional object field. */
  function Entries(v: JsValue): seq<Prop> {
    if v.Obj? then v.props else []
  }

  function StringsOf(v: JsValue): Option<seq<string>>
    requires StringListOk(v)
  {
    if v == Undefined then None else Some(Strings(v))
  }

  function KeysOf(v: JsValue): Option<seq<string>>
    requires ObjectOk(v)
  {
    if v == Undefined then None else Some(Keys(v.props))
  }

  function ToAttributeDirective(ad: JsValue): Option<AttributeDirective>
    requires AttributeDirectiveOk(ad)
  {
    if ad == Undefined then None
    else
      var value := Get(ad, "attributeValue");
      Some(AttributeDirective(Get(ad, "element").s, if IsString(value) then Some(value.s) else None))
  }

  /** The three checks on one custom binding, then `extendPrototype` on its `decode`. */
  function CheckCustomBinding(rt: UserCode, p: Prop): (r: Result<(CustomBinding, JsValue)>)
    ensures !IsPlainObject(p.value) ==> r == Err(Error(MsgCustomBindingObject))
    ensures (IsPlainObject(p.value) && !IsString(Get(p.value, "attribute")))
              ==> r == Err(Error(MsgCustomBindingAttribute))
    ensures (IsPlainObject(p.value) && IsString(Get(p.value, "attribute"))
             && !IsString(Get(p.value, "attributeValue")))
              ==> r == Err(Error(MsgCustomBindingAttributeValue))
    ensures r.Ok? <==>
              && IsPlainObject(p.value)
              && IsString(Get(p.value, "attribute"))
              && IsString(Get(p.value, "attributeValue"))
              && ExtendPrototype(rt, Get(p.value, "decode"), p.key, MsgCustomBindingDecode).Ok?
    ensures r.Ok? ==>
              && r.value.0 == CustomBinding(p.key, Get(p.value, "attribute").s, Get(p.value, "attributeValue").s)
              && r.value.1 == ExtendPrototype(rt, Get(p.value, "decode"), p.key, MsgCustomBindingDecode).value
              && IsAccessor(r.value.1)
    // once the three checks pass, a failing `decode` throws what `extendPrototype` threw
    ensures (&& IsPlainObject(p.value)
             && IsString(Get(p.value, "attribute"))
             && IsString(Get(p.value, "attributeValue"))
             && ExtendPrototype(rt, Get(p.value, "decode"), p.key, MsgCustomBindingDecode).Err?)
              ==> r == Err(ExtendPrototype(rt, Get(p.value, "decode"), p.key, MsgCustomBindingDecode).error)
  {
    var v := p.value;
    if !IsPlainObject(v) then Err(Error(MsgCustomBindingObject))
    else if !IsString(Get(v, "attribute")) then Err(Error(MsgCustomBindingAttribute))
    else if !IsString(Get(v, "attributeValue")) then Err(Error(MsgCustomBindingAttributeValue))
    else
      var accessor :- ExtendPrototype(rt, Get(v, "decode"), p.key, MsgCustomBindingDecode);
      Ok((CustomBinding(p.key, Get(v, "attribute").s, Get(v, "attributeValue").s), accessor))
  }

  /** A function, or an object with an `encode` function and a string `argumentName`. */
  predicate InjectableOk(v: JsValue) {
    || IsFunction(v)
    || (IsPlainObject(v) && IsFunction(Get(v, "encode")) && IsString(Get(v, "argumentName")))
  }

  function ToInjectable(p: Prop): Injectable
    requires InjectableOk(p.value)
  {
    if IsPlainObject(p.value) then Injectable(p.key, Get(p.value, "encode").f, Some(Get(p.value, "argumentName").s))
    else Injectable(p.key, p.value.f, None)
  }

  /** The two checks on one event. */
  function CheckEvent(p: Prop): (r: Result<Event>)
    ensures !IsPlainObject(p.value) ==> r == Err(Error(MsgEventValue))
    ensures r.Ok? <==> IsPlainObject(p.value) && forall i | 0 <= i < |p.value.props| :: InjectableOk(p.value.props[i].value)
    ensures r.Err? && IsPlainObject(p.value) ==> r == Err(Error(MsgInjectable))
    ensures r.Ok? ==>
              && r.value.name == p.key
              && |r.value.injectables| == |p.value.props|
              && forall i | 0 <= i < |p.value.props| :: r.value.injectables[i].key == p.value.props[i].key
    // a function is its own encoder; an object gives its `encode` and `argumentName`
    ensures r.Ok? ==>
              forall i | 0 <= i < |p.value.props| ::
                var v, inj := p.value.props[i].value, r.value.injectables[i];
                if IsPlainObject(v) then inj.encode == Get(v, "encode").f && inj.argumentName == Some(Get(v, "argumentName").s)
                else inj.encode == v.f && inj.argumentName == None
  {
    if !IsPlainObject(p.value) then Err(Error(MsgEventValue))
    else
      var ps := p.value.props;
      if !(forall i | 0 <= i < |ps| :: InjectableOk(ps[i].value)) then Err(Error(MsgInjectable))
      else Ok(Event(p.key, seq(|ps|, i requires 0 <= i < |ps| => ToInjectable(ps[i]))))
  }

  /** The accessor each interpolation gets: `decode.string(interpolation)`. */
  function InterpolationAccessors(names: seq<string>): (r: seq<Prop>)
    ensures |r| == |names|
    ensures forall i | 0 <= i < |names| ::
              && r[i].key == names[i]
              && Bind(KindOptions(StringValue), Str(names[i])) == Ok(r[i].value)
              && IsAccessor(r[i].value)
  {
    var r := seq(|names|, i requires 0 <= i < |names| => Prop(names[i], Accessor(KindOptions(StringValue), names[i])));
    assert forall i | 0 <= i < |names| :: Keys(r[i].value.props) == ["set"];
    r
  }

  /** `extendPrototype` for one entry of `scope` or `bindings`. */
  function ExtendEntry(rt: UserCode, p: Prop, error: string): (r: Result<Prop>)
    ensures r.Ok? <==> ExtendPrototype(rt, p.value, p.key, error).Ok?
    ensures r.Ok? ==> r.value == Prop(p.key, ExtendPrototype(rt, p.value, p.key, error).value)
    ensures r.Ok? ==> IsAccessor(r.value.value)
    ensures r.Err? ==> r.error == ExtendPrototype(rt, p.value, p.key, error).error
  {
    var accessor :- ExtendPrototype(rt, p.value, p.key, error);
    Ok(Prop(p.key, accessor))
  }

  /** `extendPrototype` over every entry of `scope` or `bindings`, in order. */
  function AccessorsFor(rt: UserCode, entries: seq<Prop>, error: string): (r: Result<seq<Prop>>)
    ensures r.Ok? <==> forall i | 0 <= i < |entries| :: ExtendPrototype(rt, entries[i].value, entries[i].key, error).Ok?
    ensures r.Ok? ==>
              && |r.value| == |entries|
              && forall i | 0 <= i < |entries| ::
                   r.value[i] == Prop(entries[i].key, ExtendPrototype(rt, entries[i].value, entries[i].key, error).value)
    ensures r.Ok? ==> forall i | 0 <= i < |r.value| :: IsAccessor(r.value[i].value)
    // the first entry that fails decides the exception
    ensures r.Err? ==>
              exists i | 0 <= i < |entries| ::
                && ExtendPrototype(rt, entries[i].value, entries[i].key, error) == Err(r.error)
                && forall j | 0 <= j < i :: ExtendPrototype(rt, entries[j].value, entries[j].key, error).Ok?
  {
    Traverse(entries, (p: Prop) => ExtendEntry(rt, p, error))
  }

  /** The custom binding checks over every entry, in order. */
  function CustomBindingsFor(rt: UserCode, entries: seq<Prop>): (r: Result<seq<(CustomBinding, JsValue)>>)
    ensures r.Ok? <==> forall i | 0 <= i < |entries| :: CheckCustomBinding(rt, entries[i]).Ok?
    ensures r.Ok? ==>
              && |r.value| == |entries|
              && forall i | 0 <= i < |entries| :: r.value[i] == CheckCustomBinding(rt, entries[i]).value
    ensures r.Ok? ==>
              forall i | 0 <= i < |r.value| ::
                && r.value[i].0 == CustomBinding(entries[i].key, Get(entries[i].value, "attribute").s,
                                                 Get(entries[i].value, "attributeValue").s)
                && IsAccessor(r.value[i].1)
    ensures r.Err? ==>
              exists i | 0 <= i < |entries| ::
                && CheckCustomBinding(rt, entries[i]) == Err(r.error)
                && forall j | 0 <= j < i :: CheckCustomBinding(rt, entries[j]).Ok?
  {
    Traverse(entries, (p: Prop) => CheckCustomBinding(rt, p))
  }

  /** The event checks over every entry, in order. */
  function EventsFor(entries: seq<Prop>): (r: Result<seq<Event>>)
    ensures r.Ok? <==> forall i | 0 <= i < |entries| :: CheckEvent(entries[i]).Ok?
    ensures r.Ok? ==> |r.value| == |entries| && forall i | 0 <= i < |entries| :: r.value[i] == CheckEvent(entries[i]).value
    ensures r.Err? ==>
              exists i | 0 <= i < |entries| ::
                && CheckEvent(entries[i]) == Err(r.error)
                && forall j | 0 <= j < i :: CheckEvent(entries[j]).Ok?
  {
    Traverse(entries, CheckEvent)
  }

  /** The per-entry checks on scope, bindings, custom bindings and events all pass. */
  predicate EntriesValid(rt: UserCode, opts: JsValue) {
    var scope, bindings := Entries(Get(opts, "scope")), Entries(Get(opts, "bindings"));
    var custom, events := Entries(Get(opts, "customBindings")), Entries(Get(opts, "events"));
    && (forall i | 0 <= i < |scope| :: ExtendPrototype(rt, scope[i].value, scope[i].key, MsgScopeValue).Ok?)
    && (forall i | 0 <= i < |bindings| :: ExtendPrototype(rt, bindings[i].value, bindings[i].key, MsgBindingValue).Ok?)
    && (forall i | 0 <= i < |custom| :: CheckCustomBinding(rt, custom[i]).Ok?)
    && (forall i | 0 <= i < |events| :: CheckEvent(events[i]).Ok?)
  }

  /** The prototype `create` builds: interpolation accessors first, then
      scope, bindings and custom bindings. */
  function Prototype(interpolations: seq<Prop>, scope: seq<Prop>, bindings: seq<Prop>,
                     custom: seq<(CustomBinding, JsValue)>): (r: seq<Prop>)
    requires forall i | 0 <= i < |interpolations| :: IsAccessor(interpolations[i].value)
    requires forall i | 0 <= i < |scope| :: IsAccessor(scope[i].value)
    requires forall i | 0 <= i < |bindings| :: IsAccessor(bindings[i].value)
    requires forall i | 0 <= i < |custom| :: IsAccessor(custom[i].1)
    ensures |r| == |interpolations| + |scope| + |bindings| + |custom|
    ensures forall i | 0 <= i < |r| :: IsAccessor(r[i].value)
    ensures forall i | 0 <= i < |interpolations| :: r[i] == interpolations[i]
    ensures forall i | 0 <= i < |scope| :: r[|interpolations| + i] == scope[i]
    ensures forall i | 0 <= i < |bindings| :: r[|interpolations| + |scope| + i] == bindings[i]
    ensures forall i | 0 <= i < |custom| ::
              r[|interpolations| + |scope| + |bindings| + i] == Prop(custom[i].0.name, custom[i].1)
  {
    var customAccessors := seq(|custom|, i requires 0 <= i < |custom| => Prop(custom[i].0.name, custom[i].1));
    var r := interpolations + scope + bindings + customAccessors;
    assert forall i | 0 <= i < |r| :: r[i] in interpolations || r[i] in scope || r[i] in bindings || r[i] in customAccessors;
    r
  }

  /** The options `connectedCallback` reads, once validated. */
  function ValidatedOptions(opts: JsValue, custom: seq<(CustomBinding, JsValue)>, events: seq<Event>): (o: Options)
    requires OptionsShapeOk(opts)
    ensures o.bindings == KeysOf(Get(opts, "bindings"))
  {
    Options(
      ToAttributeDirective(Get(opts, "attributeDirective")),
      StringsOf(Get(opts, "attributes")),
      StringsOf(Get(opts, "interpolations")),
      KeysOf(Get(opts, "bindings")),
      if Get(opts, "customBindings") == Undefined then None
      else Some(seq(|custom|, i requires 0 <= i < |custom| => custom[i].0)),
      if Get(opts, "events") == Undefined then None else Some(events))
  }

  /** The names `options.interpolations` lists, none when it is absent. */
  function InterpolationNames(opts: JsValue): seq<string>
    requires StringListOk(Get(opts, "interpolations"))
  {
    var v := Get(opts, "interpolations");
    if v == Undefined then [] else Strings(v)
  }

  /** The part of `create` after the name is recorded: prototype accessors for
      interpolations, scope, bindings and custom bindings, then the event checks. */
  function Define(rt: UserCode, name: string, opts: JsValue): (r: Result<Definition>)
    requires OptionsShapeOk(opts)
    ensures r.Ok? <==> EntriesValid(rt, opts)
    ensures r.Ok? ==> r.value.name == name
    ensures r.Ok? ==> r.value.options.bindings == KeysOf(Get(opts, "bindings"))
    ensures r.Ok? ==> forall i | 0 <= i < |r.value.prototype| :: IsAccessor(r.value.prototype[i].value)
    // the options read later are those given
    ensures r.Ok? ==>
              && r.value.options.attributeDirective == ToAttributeDirective(Get(opts, "attributeDirective"))
              && r.value.options.attributes == StringsOf(Get(opts, "attributes"))
              && r.value.options.interpolations == StringsOf(Get(opts, "interpolations"))
              && (r.value.options.customBindings.None? <==> Get(opts, "customBindings") == Undefined)
              && (r.value.options.events.None? <==> Get(opts, "events") == Undefined)
    ensures r.Ok? && r.value.options.customBindings.Some? ==>
              var entries := Entries(Get(opts, "customBindings"));
              && |r.value.options.customBindings.value| == |entries|
              && forall i | 0 <= i < |entries| ::
                   r.value.options.customBindings.value[i] == CheckCustomBinding(rt, entries[i]).value.0
    ensures r.Ok? && r.value.options.events.Some? ==>
              var entries := Entries(Get(opts, "events"));
              && |r.value.options.events.value| == |entries|
              && forall i | 0 <= i < |entries| :: r.value.options.events.value[i] == CheckEvent(entries[i]).value
    // the prototype: interpolations, then scope, bindings and custom bindings, in order
    ensures r.Ok? ==> r.value.prototype == EntryPrototype(rt, opts)
    // the error is that of the first failing entry: scope first, then
    // bindings, custom bindings and events; interpolations cannot fail
    ensures (AccessorsFor(rt, Entries(Get(opts, "scope")), MsgScopeValue).Err?)
              ==> r == Err(AccessorsFor(rt, Entries(Get(opts, "scope")), MsgScopeValue).error)
    ensures (&& AccessorsFor(rt, Entries(Get(opts, "scope")), MsgScopeValue).Ok?
             && AccessorsFor(rt, Entries(Get(opts, "bindings")), MsgBindingValue).Err?)
              ==> r == Err(AccessorsFor(rt, Entries(Get(opts, "bindings")), MsgBindingValue).error)
    ensures (&& AccessorsFor(rt, Entries(Get(opts, "scope")), MsgScopeValue).Ok?
             && AccessorsFor(rt, Entries(Get(opts, "bindings")), MsgBindingValue).Ok?
             && CustomBindingsFor(rt, Entries(Get(opts, "customBindings"))).Err?)
              ==> r == Err(CustomBindingsFor(rt, Entries(Get(opts, "customBindings"))).error)
    ensures (&& AccessorsFor(rt, Entries(Get(opts, "scope")), MsgScopeValue).Ok?
             && AccessorsFor(rt, Entries(Get(opts, "bindings")), MsgBindingValue).Ok?
             && CustomBindingsFor(rt, Entries(Get(opts, "customBindings"))).Ok?
             && EventsFor(Entries(Get(opts, "events"))).Err?)
              ==> r == Err(EventsFor(Entries(Get(opts, "events"))).error)
  {
    var scope :- AccessorsFor(rt, Entries(Get(opts, "scope")), MsgScopeValue);
    var bindings :- AccessorsFor(rt, Entries(Get(opts, "bindings")), MsgBindingValue);
    var custom :- CustomBindingsFor(rt, Entries(Get(opts, "customBindings")));
    var events :- EventsFor(Entries(Get(opts, "events")));
    var interpolationAccessors := InterpolationAccessors(InterpolationNames(opts));
    Ok(Definition(name, ValidatedOptions(opts, custom, events), Prototype(interpolationAccessors, scope, bindings, custom)))
  }

  /** The keys of `Prototype`'s result are those of its four parts, in order. */
  lemma {:induction false} PrototypeKeys(interpolations: seq<Prop>, scope: seq<Prop>, bindings: seq<Prop>,
                                         custom: seq<(CustomBinding, JsValue)>, customKeys: seq<string>)
    requires forall i | 0 <= i < |interpolations| :: IsAccessor(interpolations[i].value)
    requires forall i | 0 <= i < |scope| :: IsAccessor(scope[i].value)
    requires forall i | 0 <= i < |bindings| :: IsAccessor(bindings[i].value)
    requires forall i | 0 <= i < |custom| :: IsAccessor(custom[i].1)
    requires |customKeys| == |custom| && forall i | 0 <= i < |custom| :: custom[i].0.name == customKeys[i]
    ensures Keys(Prototype(interpolations, scope, bindings, custom))
            == Keys(interpolations) + Keys(scope) + Keys(bindings) + customKeys
  {
    var customAccessors := seq(|custom|, i requires 0 <= i < |custom| => Prop(custom[i].0.name, custom[i].1));
    assert Prototype(interpolations, scope, bindings, custom) == interpolations + scope + bindings + customAccessors;
    KeysAppend(interpolations, scope);
    KeysAppend(interpolations + scope, bindings);
    KeysAppend(interpolations + scope + bindings, customAccessors);
    assert Keys(customAccessors) == customKeys;
  }

  /** The prototype the entry stage builds once every entry passes. */
  function EntryPrototype(rt: UserCode, opts: JsValue): (p: seq<Prop>)
    requires OptionsShapeOk(opts)
    requires EntriesValid(rt, opts)
  {
    Prototype(InterpolationAccessors(InterpolationNames(opts)),
              AccessorsFor(rt, Entries(Get(opts, "scope")), MsgScopeValue).value,
              AccessorsFor(rt, Entries(Get(opts, "bindings")), MsgBindingValue).value,
              CustomBindingsFor(rt, Entries(Get(opts, "customBindings"))).value)
  }

  /** The prototype of a successful definition, against the raw options:
      one accessor per interpolation, scope entry, binding and custom
      binding, under its own name and in that order; each is what
      `decode.string` or `extendPrototype` produced for it. */
  lemma DefinedPrototype(rt: UserCode, name: string, opts: JsValue, d: Definition)
    requires OptionsShapeOk(opts)
    requires Define(rt, name, opts) == Ok(d)
    ensures
      var p := d.prototype;
      var names := InterpolationNames(opts);
      var scope, bindings := Entries(Get(opts, "scope")), Entries(Get(opts, "bindings"));
      var custom := Entries(Get(opts, "customBindings"));
      && Keys(p) == names + Keys(scope) + Keys(bindings) + Keys(custom)
      && (forall i | 0 <= i < |names| :: Bind(KindOptions(StringValue), Str(names[i])) == Ok(p[i].value))
      && (forall i | 0 <= i < |scope| ::
            p[|names| + i].value == ExtendPrototype(rt, scope[i].value, scope[i].key, MsgScopeValue).value)
      && (forall i | 0 <= i < |bindings| ::
            p[|names| + |scope| + i].value
            == ExtendPrototype(rt, bindings[i].value, bindings[i].key, MsgBindingValue).value)
      && (forall i | 0 <= i < |custom| ::
            p[|names| + |scope| + |bindings| + i].value
            == ExtendPrototype(rt, Get(custom[i].value, "decode"), custom[i].key, MsgCustomBindingDecode).value)
  {
    assert EntriesValid(rt, opts) && d.prototype == EntryPrototype(rt, opts);
    EntryPrototypeKeys(rt, opts);
    EntryInterpolationValues(rt, opts);
    EntryScopeValues(rt, opts);
    EntryBindingValues(rt, opts);
    EntryCustomValues(rt, opts);
  }

  lemma EntryPrototypeKeys(rt: UserCode, opts: JsValue)
    requires OptionsShapeOk(opts)
    requires EntriesValid(rt, opts)
    ensures
      Keys(EntryPrototype(rt, opts))
      == InterpolationNames(opts) + Keys(Entries(Get(opts, "scope"))) + Keys(Entries(Get(opts, "bindings")))
         + Keys(Entries(Get(opts, "customBindings")))
  {
    var names := InterpolationNames(opts);
    var scope, bindings := Entries(Get(opts, "scope")), Entries(Get(opts, "bindings"));
    var custom := Entries(Get(opts, "customBindings"));
    var ia := InterpolationAccessors(names);
    var sa := AccessorsFor(rt, scope, MsgScopeValue).value;
    var ba := AccessorsFor(rt, bindings, MsgBindingValue).value;
    var ca := CustomBindingsFor(rt, custom).value;
    assert Keys(ia) == names;
    assert Keys(sa) == Keys(scope);
    assert Keys(ba) == Keys(bindings);
    PrototypeKeys(ia, sa, ba, ca, Keys(custom));
  }

  lemma EntryInterpolationValues(rt: UserCode, opts: JsValue)
    requires OptionsShapeOk(opts)
    requires EntriesValid(rt, opts)
    ensures
      var names := InterpolationNames(opts);
      forall i | 0 <= i < |names| :: Bind(KindOptions(StringValue), Str(names[i])) == Ok(EntryPrototype(rt, opts)[i].value)
  {
    var names := InterpolationNames(opts);
    var scope, bindings := Entries(Get(opts, "scope")), Entries(Get(opts, "bindings"));
    var custom := Entries(Get(opts, "customBindings"));
    var ia := InterpolationAccessors(names);
    var sa := AccessorsFor(rt, scope, MsgScopeValue).value;
    var ba := AccessorsFor(rt, bindings, MsgBindingValue).value;
    var ca := CustomBindingsFor(rt, custom).value;
    assert EntryPrototype(rt, opts) == Prototype(ia, sa, ba, ca);
  }

  lemma EntryScopeValues(rt: UserCode, opts: JsValue)
    requires OptionsShapeOk(opts)
    requires EntriesValid(rt, opts)
    ensures
      var n, scope := |InterpolationNames(opts)|, Entries(Get(opts, "scope"));
      forall i | 0 <= i < |scope| ::
        EntryPrototype(rt, opts)[n + i].value == ExtendPrototype(rt, scope[i].value, scope[i].key, MsgScopeValue).value
  {
    var names := InterpolationNames(opts);
    var scope, bindings := Entries(Get(opts, "scope")), Entries(Get(opts, "bindings"));
    var custom := Entries(Get(opts, "customBindings"));
    var ia := InterpolationAccessors(names);
    var sa := AccessorsFor(rt, scope, MsgScopeValue).value;
    var ba := AccessorsFor(rt, bindings, MsgBindingValue).value;
    var ca := CustomBindingsFor(rt, custom).value;
    assert EntryPrototype(rt, opts) == Prototype(ia, sa, ba, ca);
  }

  lemma EntryBindingValues(rt: UserCode, opts: JsValue)
    requires OptionsShapeOk(opts)
    requires EntriesValid(rt, opts)
    ensures
      var n := |InterpolationNames(opts)| + |Entries(Get(opts, "scope"))|;
      var bindings := Entries(Get(opts, "bindings"));
      forall i | 0 <= i < |bindings| ::
        EntryPrototype(rt, opts)[n + i].value
        == ExtendPrototype(rt, bindings[i].value, bindings[i].key, MsgBindingValue).value
  {
    var names := InterpolationNames(opts);
    var scope, bindings := Entries(Get(opts, "scope")), Entries(Get(opts, "bindings"));
    var custom := Entries(Get(opts, "customBindings"));
    var ia := InterpolationAccessors(names);
    var sa := AccessorsFor(rt, scope, MsgScopeValue).value;
    var ba := AccessorsFor(rt, bindings, MsgBindingValue).value;
    var ca := CustomBindingsFor(rt, custom).value;
    assert EntryPrototype(rt, opts) == Prototype(ia, sa, ba, ca);
  }

  lemma EntryCustomValues(rt: UserCode, opts: JsValue)
    requires OptionsShapeOk(opts)
    requires EntriesValid(rt, opts)
    ensures
      var n := |InterpolationNames(opts)| + |Entries(Get(opts, "scope"))| + |Entries(Get(opts, "bindings"))|;
      var custom := Entries(Get(opts, "customBindings"));
      forall i | 0 <= i < |custom| ::
        EntryPrototype(rt, opts)[n + i].value
        == ExtendPrototype(rt, Get(custom[i].value, "decode"), custom[i].key, MsgCustomBindingDecode).value
  {
    var names := InterpolationNames(opts);
    var scope, bindings := Entries(Get(opts, "scope")), Entries(Get(opts, "bindings"));
    var custom := Entries(Get(opts, "customBindings"));
    var ia := InterpolationAccessors(names);
    var sa := AccessorsFor(rt, scope, MsgScopeValue).value;
    var ba := AccessorsFor(rt, bindings, MsgBindingValue).value;
    var ca := CustomBindingsFor(rt, custom).value;
    assert EntryPrototype(rt, opts) == Prototype(ia, sa, ba, ca);
  }

  // ---------------------------------------------------------------------
  // create

  datatype Created = Created(registry: set<string>, outcome: Result<Definition>)

  /** `create(componentName, options)`. */
  function Create(rt: UserCode, registry: set<string>, directives: set<string>,
                  componentName: JsValue, options: JsValue): (c: Created)
    ensures !IsString(componentName) ==> c == Created(registry, Err(Error(MsgName)))
    ensures (IsString(componentName) && componentName.s in registry)
              ==> c == Created(registry, Err(Error(MsgRegistered(componentName.s))))
    // the checks before the name is recorded fail in their fixed order
    ensures IsString(componentName) ==>
              var cs := TopLevelChecks(registry, directives, componentName.s, Normalize(options));
              forall k | 0 <= k < |cs| && !cs[k].ok && (forall j | 0 <= j < k :: cs[j].ok) ::
                c == Created(registry, Err(Error(cs[k].message)))
    // the name is recorded as soon as those checks pass, whatever follows
    ensures c.registry == if Admissible(registry, directives, componentName, options)
                          then registry + {componentName.s} else registry
    ensures c.outcome.Ok? <==>
              Admissible(registry, directives, componentName, options) && EntriesValid(rt, Normalize(options))
    ensures c.outcome.Ok? ==> c.outcome.value.name == componentName.s
    // past those checks, the outcome (and any error) is that of the entry stage
    ensures (Admissible(registry, directives, componentName, options))
              ==> c.outcome == Define(rt, componentName.s, Normalize(options))
  {
    if !IsString(componentName) then Created(registry, Err(Error(MsgName)))
    else
      var name, opts := componentName.s, Normalize(options);
      var cs := TopLevelChecks(registry, directives, name, opts);
      assert cs[0] == Check(name !in registry, MsgRegistered(name));
      assert cs[1] == Check(DirectiveName(name) in directives, MsgNoComponent(CamelCase(name)));
      assert cs[2..] == OptionChecks(opts);
      OptionChecksPass(opts);
      assert (forall i | 0 <= i < |cs| :: cs[i].ok) <==> Admissible(registry, directives, componentName, options) by {
        if forall i | 0 <= i < |cs| :: cs[i].ok {
          assert forall i | 0 <= i < |OptionChecks(opts)| :: OptionChecks(opts)[i] == cs[i + 2];
        }
        if Admissible(registry, directives, componentName, options) {
          forall i | 0 <= i < |cs| ensures cs[i].ok {
            if i >= 2 { assert cs[i] == OptionChecks(opts)[i - 2]; }
          }
        }
      }
      match FirstFailure(cs)
      case Some(m) => Created(registry, Err(Error(m)))
      case None => Created(registry + {name}, Define(rt, name, opts))
  }

  /** A `create` that passes the checks before recording its name and then
      fails on an entry still blocks the name: the next `create` with that
      name is rejected as a duplicate, whatever its options. */
  lemma FailedCreateBlocksName(rt: UserCode, registry: set<string>, directives: set<string>,
                               name: string, options: JsValue, retryOptions: JsValue)
    requires Admissible(registry, directives, Str(name), options)
    requires !EntriesValid(rt, Normalize(options))
    ensures
      var first := Create(rt, registry, directives, Str(name), options);
      && first.outcome.Err?
      && Create(rt, first.registry, directives, Str(name), retryOptions)
         == Created(first.registry, Err(Error(MsgRegistered(name))))
  {
  }

  /** The evidently intended `create`: the name is recorded only when the
      element is actually defined. */
  function CreateAtomic(rt: UserCode, registry: set<string>, directives: set<string>,
                        componentName: JsValue, options: JsValue): (c: Created)
    ensures c.outcome == Create(rt, registry, directives, componentName, options).outcome
    ensures c.registry == if c.outcome.Ok? then registry + {componentName.s} else registry
  {
    var c := Create(rt, registry, directives, componentName, options);
    if c.outcome.Ok? then c else Created(registry, c.outcome)
  }

  /** With the corrected `create` a failed call can be retried under the same name. */
  lemma AtomicCreateAllowsRetry(rt: UserCode, registry: set<string>, directives: set<string>,
                                name: string, options: JsValue, retryOptions: JsValue)
    // the first call fails, before or after the point where `create` records the name
    requires !Admissible(registry, directives, Str(name), options) || !EntriesValid(rt, Normalize(options))
    requires Admissible(registry, directives, Str(name), retryOptions)
    requires EntriesValid(rt, Normalize(retryOptions))
    ensures
      var first := CreateAtomic(rt, registry, directives, Str(name), options);
      var after := first.registry;
      var retry := CreateAtomic(rt, after, directives, Str(name), retryOptions);
      && first.outcome.Err?
      && after == registry
      && retry.outcome.Ok?
      && retry.outcome.value.name == name
      && retry.registry == registry + {name}
  {
  }
}

=== FILE: decode.dfy ===
/**
  The decoder factory `helper.decode(options)`, the binding function it
  returns, the `set` function that binding function builds, and the
  built-in decoders that are instances of the factory.

  A setter writes into the custom element's `vm` object (a map from binding
  name to value) and asks AngularJS for a digest (`$scope.$evalAsync()`);
  here a call to `set` yields the new `vm`, whether a digest was requested,
  and what it threw, if anything.
 */
module Decode {
  import opened Js

  const MsgTransformation := "Value transformation should be a function"
  const MsgEquality := "Equality check should be a function"
  const MsgAssertion := "Assertion should be a function"
  const MsgType := "Value type should be a string"
  const MsgBindingName := "Binding name should be a string"

  /** `options.valueTransformation` */
  function Transformation(o: JsValue): JsValue { Get(o, "valueTransformation") }

  /** `options.equalityCheck || _.isEqual` */
  function EqualityCheck(o: JsValue): JsValue {
    var e := Get(o, "equalityCheck");
    if Truthy(e) then e else Func(Lodash(IsEqualFn))
  }

  /** `options.assert` */
  function Assertion(o: JsValue): JsValue { Get(o, "assert") }

  /** `options.type` */
  function TypeName(o: JsValue): JsValue { Get(o, "type") }

  /** `options.nullValue` when it is an own property, `undefined` otherwise. */
  function NullValue(o: JsValue): JsValue {
    if HasOwn(o, "nullValue") then Get(o, "nullValue") else Undefined
  }

  /** What the factory demands of its options, independent of check order. */
  predicate ValidOptions(o: JsValue) {
    && (IsFunction(Transformation(o)) || Transformation(o) == Undefined)
    && IsFunction(EqualityCheck(o))
    && IsFunction(Assertion(o))
    && IsString(TypeName(o))
  }

  /** The factory's assertions, in the order it makes them. */
  function DecodeChecks(o: JsValue): seq<Check> {
    [ Check(IsFunction(Transformation(o)) || Transformation(o) == Undefined, MsgTransformation),
      Check(IsFunction(EqualityCheck(o)), MsgEquality),
      Check(IsFunction(Assertion(o)), MsgAssertion),
      Check(IsString(TypeName(o)), MsgType) ]
  }

  /** `helper.decode(options)`: validates the options and returns the
      binding function, or throws the message of the first failed check. */
  function MakeDecoder(o: JsValue): (r: Result<JsValue>)
    ensures r.Ok? <==> ValidOptions(o)
    ensures r.Ok? ==> r.value == Func(Decoder(o))
    ensures (o == Undefined || o == Null) ==> r.Err? && r.error.TypeError?
    ensures o != Undefined && o != Null ==>
              var transformationOk := IsFunction(Transformation(o)) || Transformation(o) == Undefined;
              && (!transformationOk ==> r == Err(Error(MsgTransformation)))
              && (transformationOk && !IsFunction(EqualityCheck(o)) ==> r == Err(Error(MsgEquality)))
              && ((transformationOk && IsFunction(EqualityCheck(o)) && !IsFunction(Assertion(o)))
                    ==> r == Err(Error(MsgAssertion)))
              && ((transformationOk && IsFunction(EqualityCheck(o)) && IsFunction(Assertion(o))
                   && !IsString(TypeName(o)))
                    ==> r == Err(Error(MsgType)))
  {
    if o == Undefined || o == Null then
      Err(TypeError("Cannot read properties of " + (if o == Null then "null" else "undefined")))
    else
      var cs := DecodeChecks(o);
      assert cs[0].message == MsgTransformation && cs[1].message == MsgEquality;
      assert cs[2].message == MsgAssertion && cs[3].message == MsgType;
      match FirstFailure(cs)
      case None =>
        assert cs[0].ok && cs[1].ok && cs[2].ok && cs[3].ok;
        Ok(Func(Decoder(o)))
      case Some(m) => Err(Error(m))
  }

  /** The accessor `{ set: ... }` the binding function returns for a name. */
  function Accessor(o: JsValue, name: string): JsValue {
    Obj([Prop("set", Func(Setter(o, name)))])
  }

  /** The binding function `decode(options)` returned, applied to a binding name. */
  function Bind(o: JsValue, bindingName: JsValue): (r: Result<JsValue>)
    ensures r.Ok? <==> IsString(bindingName)
    ensures r.Err? ==> r.error == Error(MsgBindingName)
    ensures r.Ok? ==> r.value.Obj? && Keys(r.value.props) == ["set"]
    ensures r.Ok? ==> Get(r.value, "set") == Func(Setter(o, bindingName.s))
  {
    if IsString(bindingName) then Ok(Accessor(o, bindingName.s)) else Err(Error(MsgBindingName))
  }

  const MsgNoReceiver := "Cannot read properties of undefined (reading '$scope')"

  /** Calls a function value with the given arguments and no receiver. A
      `set` function called that way runs the assertion and the
      transformation on its argument first; it throws their exception, or
      the typed error for a rejected value, and otherwise reaches
      `this.$scope` of `undefined`, which strict mode turns into a
      `TypeError`. */
  function Call(rt: UserCode, f: JsFunction, args: seq<JsValue>): (r: Result<JsValue>)
    ensures f.Lodash? ==> r.Ok?
    ensures f.Decoder? ==> r == Bind(f.options, Arg(args, 0))
    // without a receiver, `set` never completes
    ensures f.Setter? ==> r.Err?
    ensures f.Setter? && Arg(args, 0) == Null ==> r == Err(TypeError(MsgNoReceiver))
    decreases f
  {
    match f
    case Lodash(b) => Ok(ApplyBuiltin(b, args))
    case User(id) => rt(id, args)
    case Decoder(o) => Bind(o, Arg(args, 0))
    case Setter(o, _) =>
      var v := Arg(args, 0);
      if v == Null || !ValidOptions(o) then Err(TypeError(MsgNoReceiver))
      else
        LookupIsEntry(o.props, "assert");
        var accepted :- Call(rt, Assertion(o).f, [v]);
        if !Truthy(accepted) then Err(Error(WrongTypeMessage(o, v)))
        else if IsFunction(Transformation(o)) then
          LookupIsEntry(o.props, "valueTransformation");
          var _ :- Call(rt, Transformation(o).f, [v]);
          Err(TypeError(MsgNoReceiver))
        else Err(TypeError(MsgNoReceiver))
  }

  /** The custom element's `$scope.vm`. */
  type Vm = map<string, JsValue>

  /** `vm[name]`: an absent property reads as `undefined`. */
  function Current(vm: Vm, name: string): JsValue {
    if name in vm then vm[name] else Undefined
  }

  /** The effect of one call to a setter. */
  datatype Step = Step(vm: Vm, digest: bool, thrown: Option<JsError>)

  /** The value the setter compares and stores for an accepted input. */
  function Transformed(rt: UserCode, o: JsValue, value: JsValue): Result<JsValue>
    requires ValidOptions(o)
  {
    if IsFunction(Transformation(o)) then Call(rt, Transformation(o).f, [value]) else Ok(value)
  }

  function WrongTypeMessage(o: JsValue, value: JsValue): string
    requires ValidOptions(o)
  {
    "Expected a " + TypeName(o).s + " or null, but got " + TypeOf(value)
  }

  /** `vm` after storing `v` under the binding, with a digest requested. */
  function Store(vm: Vm, name: string, v: JsValue): Step {
    Step(vm[name := v], true, None)
  }

  /** Assigning `value` to the bound property of the custom element. */
  function Set(rt: UserCode, setter: JsFunction, vm: Vm, value: JsValue): (s: Step)
    requires setter.Setter? && ValidOptions(setter.options)
    // whatever happens, only the bound property can change, and it changes
    // exactly when a digest is requested
    ensures s.digest ==> s.thrown.None? && setter.bindingName in s.vm
    ensures s.digest ==> s.vm == vm[setter.bindingName := s.vm[setter.bindingName]]
    ensures !s.digest ==> s.vm == vm
    // null stores the configured null value, whatever was there before
    ensures value == Null ==> s == Store(vm, setter.bindingName, NullValue(setter.options))
    // a value the assertion rejects raises the typed error
    ensures (value != Null && Call(rt, Assertion(setter.options).f, [value]).Ok?
             && !Truthy(Call(rt, Assertion(setter.options).f, [value]).value))
              ==> s.thrown == Some(Error(WrongTypeMessage(setter.options, value)))
    // an accepted value is stored, transformed, exactly when the equality
    // check says false against the current value
    ensures value != Null ==>
              (s.digest <==>
                 && Call(rt, Assertion(setter.options).f, [value]).Ok?
                 && Truthy(Call(rt, Assertion(setter.options).f, [value]).value)
                 && Transformed(rt, setter.options, value).Ok?
                 && Call(rt, EqualityCheck(setter.options).f,
                         [Transformed(rt, setter.options, value).value, Current(vm, setter.bindingName)])
                    == Ok(Bool(false)))
    ensures value != Null && s.digest ==>
              s.vm[setter.bindingName] == Transformed(rt, setter.options, value).value
    // an exception from the assertion, the transformation or the equality
    // check propagates, and an accepted value the check finds equal to the
    // current one changes nothing and throws nothing
    ensures value != Null ==>
              var accepted := Call(rt, Assertion(setter.options).f, [value]);
              var next := Transformed(rt, setter.options, value);
              && (accepted.Err? ==> s == Step(vm, false, Some(accepted.error)))
              && ((accepted.Ok? && Truthy(accepted.value) && next.Err?)
                    ==> s == Step(vm, false, Some(next.error)))
              && ((accepted.Ok? && Truthy(accepted.value) && next.Ok?)
                    ==> var same := Call(rt, EqualityCheck(setter.options).f, [next.value, Current(vm, setter.bindingName)]);
                        && (same.Err? ==> s == Step(vm, false, Some(same.error)))
                        && ((same.Ok? && same.value != Bool(false)) ==> s == Step(vm, false, None)))
  {
    var o, name := setter.options, setter.bindingName;
    if value == Null then Store(vm, name, NullValue(o))
    else
      match Call(rt, Assertion(o).f, [value])
      case Err(e) => Step(vm, false, Some(e))
      case Ok(accepted) =>
        if !Truthy(accepted) then Step(vm, false, Some(Error(WrongTypeMessage(o, value))))
        else
          match Transformed(rt, o, value)
          case Err(e) => Step(vm, false, Some(e))
          case Ok(v) =>
            match Call(rt, EqualityCheck(o).f, [v, Current(vm, name)])
            case Err(e) => Step(vm, false, Some(e))
            case Ok(same) => if same == Bool(false) then Store(vm, name, v) else Step(vm, false, None)
  }

  /** A `set` function called without a receiver (say, handed to `create`
      as a binding function) still checks its argument first: the
      assertion's or the transformation's exception, or the typed error for
      a rejected value, comes out before the missing `this` is noticed. */
  lemma UnboundSetter(rt: UserCode, setter: JsFunction, value: JsValue)
    requires setter.Setter? && ValidOptions(setter.options)
    requires value != Null
    ensures
      var r := Call(rt, setter, [value]);
      var accepted := Call(rt, Assertion(setter.options).f, [value]);
      && (accepted.Err? ==> r == Err(accepted.error))
      && ((accepted.Ok? && !Truthy(accepted.value))
            ==> r == Err(Error(WrongTypeMessage(setter.options, value))))
      && ((accepted.Ok? && Truthy(accepted.value) && Transformed(rt, setter.options, value).Err?)
            ==> r == Err(Transformed(rt, setter.options, value).error))
      && ((accepted.Ok? && Truthy(accepted.value) && Transformed(rt, setter.options, value).Ok?)
            ==> r == Err(TypeError(MsgNoReceiver)))
  {
  }

  /** The equality check, applied to a value and itself, neither throws nor answers `false`. */
  predicate ReflexiveOn(rt: UserCode, o: JsValue, v: JsValue)
    requires ValidOptions(o)
  {
    var r := Call(rt, EqualityCheck(o).f, [v, v]);
    r.Ok? && r.value != Bool(false)
  }

  /** Setting the same accepted value twice in a row: the second call
      changes nothing and requests no digest. */
  lemma SetIdempotent(rt: UserCode, setter: JsFunction, vm: Vm, value: JsValue)
    requires setter.Setter? && ValidOptions(setter.options)
    requires value != Null
    requires Set(rt, setter, vm, value).thrown.None?
    requires Transformed(rt, setter.options, value).Ok?
    requires ReflexiveOn(rt, setter.options, Transformed(rt, setter.options, value).value)
    ensures Set(rt, setter, Set(rt, setter, vm, value).vm, value) == Step(Set(rt, setter, vm, value).vm, false, None)
  {
    var s1 := Set(rt, setter, vm, value);
    if s1.digest {
      assert Current(s1.vm, setter.bindingName) == Transformed(rt, setter.options, value).value;
    }
  }

  /** The decoders the service ships. */
  datatype Kind = AnyValue | BooleanValue | IntegerValue | StringValue | ObjectValue | ArrayValue

  function KindAssertion(k: Kind): Builtin {
    match k
    case AnyValue => ConstantTrue
    case BooleanValue => IsBooleanFn
    case IntegerValue => IsIntegerFn
    case StringValue => IsStringFn
    case ObjectValue => IsPlainObjectFn
    case ArrayValue => IsArrayFn
  }

  function KindName(k: Kind): string {
    match k
    case AnyValue => "any"
    case BooleanValue => "boolean"
    case IntegerValue => "integer"
    case StringValue => "string"
    case ObjectValue => "object"
    case ArrayValue => "array"
  }

  /** The options object each built-in decoder is made from. */
  function KindOptions(k: Kind): JsValue {
    Obj([Prop("assert", Func(Lodash(KindAssertion(k)))), Prop("type", Str(KindName(k)))])
  }

  /** `decode.identity`, `decode.boolean`, ...: each is the factory applied to its options. */
  function BuiltinDecoder(k: Kind): (d: JsValue)
    ensures MakeDecoder(KindOptions(k)) == Ok(d)
  {
    Func(Decoder(KindOptions(k)))
  }

  /** `encode.identity` */
  const EncodeIdentity: JsFunction := Lodash(IdentityFn)

  /** `encode.identity` returns its argument unchanged, `undefined` included. */
  lemma EncodeIdentityKeepsValue(rt: UserCode, v: JsValue)
    ensures Call(rt, EncodeIdentity, [v]) == Ok(v)
  {
  }

  /** A built-in decoder, given an accepted value it has just stored, ignores
      the same value a second time: `_.isEqual` is reflexive. */
  lemma {:induction false} BuiltinSetIdempotent(rt: UserCode, k: Kind, name: string, vm: Vm, value: JsValue)
    requires WellFormed(value)
    requires value != Null
    requires ApplyBuiltin(KindAssertion(k), [value]) == Bool(true)
    ensures
      var setter := Setter(KindOptions(k), name);
      var s1 := Set(rt, setter, vm, value);
      s1.thrown.None? && Set(rt, setter, s1.vm, value) == Step(s1.vm, false, None)
  {
    var o := KindOptions(k);
    assert ValidOptions(o);
    assert Transformed(rt, o, value) == Ok(value);
    DeepEqualReflexive(value);
    assert ReflexiveOn(rt, o, value);
    SetIdempotent(rt, Setter(o, name), vm, value);
  }

  /** The string decoder rejects a number with the message the service promises. */
  lemma StringDecoderRejectsNumber(rt: UserCode, vm: Vm)
    ensures Set(rt, Setter(KindOptions(StringValue), "csModel"), vm, Num(123.0))
            == Step(vm, false, Some(Error("Expected a string or null, but got number")))
  {
    var o := KindOptions(StringValue);
    assert Assertion(o) == Func(Lodash(IsStringFn));
    assert TypeName(o) == Str("string");
    assert WrongTypeMessage(o, Num(123.0)) == "Expected a string or null, but got number";
  }
}

=== FILE: js.dfy ===
/**
  JavaScript values as the service sees them, together with the lodash and
  angular predicates it applies to them (`_.isString`, `_.isPlainObject`,
  `angular.isUndefined`, `typeof`, truthiness, `_.isEqual`, `Object.keys`).

  A plain object lists its own enumerable properties in the order
  `Object.keys` reports them; every other object (a Date, a class instance)
  is an opaque `Instance`. Functions are values too: the lodash helpers the
  service passes around, the closures `decode` builds, and user code, whose
  behaviour is a parameter (`UserCode`) of every operation that calls it.
 */
module Js {

  datatype Option<+T> = None | Some(value: T) {
    function GetOr(default: T): T {
      match this
      case Some(v) => v
      case None => default
    }
  }

  /** What a statement can throw: `csAssert.ok` and `throw new Error(...)`
      raise an `Error` with a message; reading a property of `undefined` or
      `null` raises a `TypeError`. */
  datatype JsError = Error(message: string) | TypeError(reason: string)

  /** Either the value a JavaScript expression produced, or what it threw. */
  datatype Result<+T> = Ok(value: T) | Err(error: JsError) {
    predicate IsFailure() {
      Err?
    }

    function PropagateFailure<U>(): Result<U>
      requires Err?
    {
      Err(error)
    }

    function Extract(): T
      requires Ok?
    {
      value
    }
  }

  /** The library functions the service hands around as values. */
  datatype Builtin =
    | IsBooleanFn      // _.isBoolean
    | IsIntegerFn      // _.isInteger
    | IsStringFn       // _.isString
    | IsPlainObjectFn  // _.isPlainObject
    | IsArrayFn        // _.isArray
    | ConstantTrue     // _.constant(true)
    | IsEqualFn        // _.isEqual
    | IdentityFn       // _.identity
    | NoopFn           // angular.noop

  datatype JsFunction =
    | Lodash(builtin: Builtin)
    | User(id: nat)
      /** The function `decode(options)` returns, before it is given a binding name. */
    | Decoder(options: JsValue)
      /** The `set` function of the accessor that decoder returns for `bindingName`. */
    | Setter(options: JsValue, bindingName: string)

  datatype JsValue =
    | Undefined
    | Null
    | Bool(b: bool)
    | Num(x: real)
    | Str(s: string)
    | Arr(items: seq<JsValue>)
    | Obj(props: seq<Prop>)
    | Instance(className: string)
    | Func(f: JsFunction)

  datatype Prop = Prop(key: string, value: JsValue)

  /** Behaviour of user-supplied functions: the result or exception of
      calling function `id` with the given arguments. Such functions are
      pure: no state, no other effect and no `this`. */
  type UserCode = (nat, seq<JsValue>) -> Result<JsValue>

  /** `arguments[i]`: missing arguments read as `undefined`. */
  function Arg(args: seq<JsValue>, i: nat): JsValue {
    if i < |args| then args[i] else Undefined
  }

  predicate Truthy(v: JsValue) {
    match v
    case Undefined => false
    case Null => false
    case Bool(b) => b
    case Num(x) => x != 0.0
    case Str(s) => s != ""
    case _ => true
  }

  function TypeOf(v: JsValue): string {
    match v
    case Undefined => "undefined"
    case Bool(_) => "boolean"
    case Num(_) => "number"
    case Str(_) => "string"
    case Func(_) => "function"
    case _ => "object"
  }

  predicate IsString(v: JsValue) { v.Str? }

  predicate IsFunction(v: JsValue) { v.Func? }

  predicate IsPlainObject(v: JsValue) { v.Obj? }

  predicate IsInteger(v: JsValue) { v.Num? && v.x.Floor as real == v.x }

  /** `Array.isArray(v) && v.every(_.isString)` */
  predicate IsStringArray(v: JsValue) {
    v.Arr? && forall i | 0 <= i < |v.items| :: v.items[i].Str?
  }

  function Strings(v: JsValue): (r: seq<string>)
    requires IsStringArray(v)
    ensures |r| == |v.items|
    ensures forall i | 0 <= i < |r| :: v.items[i] == Str(r[i])
  {
    seq(|v.items|, i requires 0 <= i < |v.items| => v.items[i].s)
  }

  /** `Object.keys` of a plain object. */
  function Keys(ps: seq<Prop>): (r: seq<string>)
    ensures |r| == |ps|
    ensures forall i | 0 <= i < |ps| :: r[i] == ps[i].key
  {
    seq(|ps|, i requires 0 <= i < |ps| => ps[i].key)
  }

  lemma KeysAppend(a: seq<Prop>, b: seq<Prop>)
    ensures Keys(a + b) == Keys(a) + Keys(b)
  {
    assert forall i | 0 <= i < |a| + |b| :: Keys(a + b)[i] == (Keys(a) + Keys(b))[i];
  }

  predicate DistinctKeys(ps: seq<Prop>) {
    forall i, j | 0 <= i < j < |ps| :: ps[i].key != ps[j].key
  }

  /** The value of own property `key`, `undefined` when there is none. */
  function Lookup(ps: seq<Prop>, key: string): JsValue {
    if ps == [] then Undefined
    else if ps[0].key == key then ps[0].value
    else Lookup(ps[1..], key)
  }

  /** Property read `v.key` for the keys the service reads; none of them is
      inherited by strings, arrays or functions, so those read `undefined`. */
  function Get(v: JsValue, key: string): JsValue {
    if v.Obj? then Lookup(v.props, key) else Undefined
  }

  /** `v.hasOwnProperty(key)` */
  predicate HasOwn(v: JsValue, key: string) {
    v.Obj? && key in Keys(v.props)
  }

  /** A value JavaScript could build: no object repeats a key. */
  predicate WellFormed(v: JsValue)
    decreases v
  {
    match v
    case Arr(xs) => forall i | 0 <= i < |xs| :: WellFormed(xs[i])
    case Obj(ps) => DistinctKeys(ps) && forall i | 0 <= i < |ps| :: WellFormed(ps[i].value)
    case _ => true
  }

  /** `_.isEqual`: arrays element-wise, plain objects by their own keys
      whatever their order, everything else by identity. */
  predicate DeepEqual(a: JsValue, b: JsValue)
    decreases a
  {
    match a
    case Arr(xs) =>
      && b.Arr?
      && |xs| == |b.items|
      && forall i | 0 <= i < |xs| :: DeepEqual(xs[i], b.items[i])
    case Obj(ps) =>
      && b.Obj?
      && |ps| == |b.props|
      && forall i | 0 <= i < |ps| ::
           ps[i].key in Keys(b.props) && DeepEqual(ps[i].value, Lookup(b.props, ps[i].key))
    case _ => a == b
  }

  /** A value found by `Lookup` is one of the object's own entries. */
  lemma {:induction false} LookupIsEntry(ps: seq<Prop>, key: string)
    ensures Lookup(ps, key) == Undefined || exists i | 0 <= i < |ps| :: ps[i].key == key && ps[i].value == Lookup(ps, key)
  {
    if ps != [] && ps[0].key != key {
      LookupIsEntry(ps[1..], key);
      if Lookup(ps, key) != Undefined {
        var i :| 0 <= i < |ps[1..]| && ps[1..][i].key == key && ps[1..][i].value == Lookup(ps, key);
        assert ps[i + 1] == ps[1..][i];
      }
    }
  }

  lemma {:induction false} LookupDistinct(ps: seq<Prop>, i: nat)
    requires DistinctKeys(ps)
    requires i < |ps|
    ensures Lookup(ps, ps[i].key) == ps[i].value
  {
    if i > 0 {
      assert ps[0].key != ps[i].key;
      assert ps[1..][i - 1] == ps[i];
      LookupDistinct(ps[1..], i - 1);
    }
  }

  /** Reading a key the object does not own gives `undefined`. */
  lemma {:induction false} LookupMissing(ps: seq<Prop>, key: string)
    requires key !in Keys(ps)
    ensures Lookup(ps, key) == Undefined
  {
    if ps != [] {
      assert Keys(ps)[0] == ps[0].key;
      assert Keys(ps[1..]) == Keys(ps)[1..];
      LookupMissing(ps[1..], key);
    }
  }

  /** `_.isEqual` is reflexive on every value JavaScript can build. */
  lemma {:induction false} DeepEqualReflexive(v: JsValue)
    requires WellFormed(v)
    ensures DeepEqual(v, v)
    decreases v
  {
    match v
    case Arr(xs) =>
      forall i | 0 <= i < |xs|
        ensures DeepEqual(xs[i], xs[i])
      {
        DeepEqualReflexive(xs[i]);
      }
    case Obj(ps) =>
      forall i | 0 <= i < |ps|
        ensures ps[i].key in Keys(ps) && DeepEqual(ps[i].value, Lookup(ps, ps[i].key))
      {
        LookupDistinct(ps, i);
        DeepEqualReflexive(ps[i].value);
      }
    case _ =>
  }

  /** Applies a library function to its arguments; none of them throws. */
  function ApplyBuiltin(b: Builtin, args: seq<JsValue>): JsValue {
    var v := Arg(args, 0);
    match b
    case IsBooleanFn => Bool(v.Bool?)
    case IsIntegerFn => Bool(IsInteger(v))
    case IsStringFn => Bool(IsString(v))
    case IsPlainObjectFn => Bool(IsPlainObject(v))
    case IsArrayFn => Bool(v.Arr?)
    case ConstantTrue => Bool(true)
    case IsEqualFn => Bool(DeepEqual(v, Arg(args, 1)))
    case IdentityFn => v
    case NoopFn => Undefined
  }

  /** One assertion of an ordered list: when `ok` is false it fails with `message`. */
  datatype Check = Check(ok: bool, message: string)

  /** `csAssert.ok` applied to each check in turn: the message of the first
      failing check, or `None` when all pass. */
  function FirstFailure(cs: seq<Check>): (r: Option<string>)
    ensures r.None? <==> forall i | 0 <= i < |cs| :: cs[i].ok
    ensures forall k | 0 <= k < |cs| && !cs[k].ok && (forall j | 0 <= j < k :: cs[j].ok) ::
      r == Some(cs[k].message)
  {
    if cs == [] then None
    else if !cs[0].ok then Some(cs[0].message)
    else
      var r := FirstFailure(cs[1..]);
      assert forall j | 1 <= j < |cs| :: cs[j] == cs[1..][j - 1];
      r
  }

  /** Runs `f` over `xs` in order and stops at the first exception, as a
      `forEach` whose body may throw. */
  function Traverse<A, B>(xs: seq<A>, f: A -> Result<B>): (r: Result<seq<B>>)
    ensures r.Ok? <==> forall i | 0 <= i < |xs| :: f(xs[i]).Ok?
    ensures r.Ok? ==> |r.value| == |xs| && forall i | 0 <= i < |xs| :: r.value[i] == f(xs[i]).value
    ensures r.Err? ==>
      exists i | 0 <= i < |xs| ::
        && f(xs[i]) == Err(r.error)
        && forall j | 0 <= j < i :: f(xs[j]).Ok?
    decreases |xs|
  {
    if xs == [] then Ok([])
    else
      var n := |xs| - 1;
      var front := Traverse(xs[..n], f);
      assert forall j | 0 <= j < n :: xs[..n][j] == xs[j];
      if front.Err? then Err(front.error)
      else
        match f(xs[n])
        case Err(e) => Err(e)
        case Ok(y) => Ok(front.value + [y])
  }
}

=== FILE: names.dfy ===
/**
  The two name conversions the service relies on, for ASCII names:
  `_.kebabCase` turns a scope property such as `csApiUrl` into the attribute
  name `cs-api-url`, and `_.camelCase` turns a component name such as
  `cs-conta-component` into the directive name `csContaComponent`. AngularJS
  applies the same camel-casing when it matches an attribute to a binding,
  so the round trip between the two is what makes the generated attributes
  reach the component.

  The conversions here split words at every capital and at nothing else.
  That is what lodash does for the names the round-trip lemmas admit
  (`IsPropertyName`, `IsComponentName`): ASCII letters, a lower-case first
  letter, no two capitals in a row (no one-letter word between two
  hyphens), and no digits or other separators.
 */
module Names {

  predicate IsUpper(c: char) { 'A' <= c <= 'Z' }

  predicate IsLower(c: char) { 'a' <= c <= 'z' }

  function Lower(c: char): (r: char)
    ensures !IsUpper(r)
    ensures IsUpper(c) ==> IsLower(r)
    ensures !IsUpper(c) ==> r == c
  {
    if IsUpper(c) then (c as int + 32) as char else c
  }

  function Upper(c: char): (r: char)
    ensures IsLower(c) ==> IsUpper(r)
    ensures !IsLower(c) ==> r == c
  {
    if IsLower(c) then (c as int - 32) as char else c
  }

  /** Every upper-case letter starts a new hyphen-separated word. */
  function KebabCase(s: string): (r: string)
    ensures forall i | 0 <= i < |r| :: !IsUpper(r[i])
    decreases |s|
  {
    if s == [] then []
    else (if IsUpper(s[0]) then ['-', Lower(s[0])] else [s[0]]) + KebabCase(s[1..])
  }

  /** Every hyphen is dropped and the letter after it is capitalised. */
  function CamelCase(s: string): string
    decreases |s|
  {
    if s == [] then []
    else if s[0] == '-' then (if |s| >= 2 then [Upper(s[1])] + CamelCase(s[2..]) else [])
    else [s[0]] + CamelCase(s[1..])
  }

  predicate IsLetter(c: char) { IsUpper(c) || IsLower(c) }

  /** A lower-case name whose every hyphen is followed by a lower-case letter. */
  predicate IsKebabName(s: string) {
    && (forall i | 0 <= i < |s| :: !IsUpper(s[i]))
    && (forall i | 0 <= i < |s| && s[i] == '-' :: i + 1 < |s| && IsLower(s[i + 1]))
  }

  /** A name without hyphens, such as a scope property name. */
  predicate IsIdentifier(s: string) {
    forall i | 0 <= i < |s| :: s[i] != '-'
  }

  /** The prefixes AngularJS's `directiveNormalize` strips from an
      attribute or tag name before camel-casing it. */
  predicate HasNormalizedPrefix(s: string) {
    || (|s| >= 2 && s[..2] == "x-")
    || (|s| >= 5 && s[..5] == "data-")
  }

  /** AngularJS's `directiveNormalize` for lower-case hyphenated names: the
      name a tag or attribute is matched against. */
  function DirectiveNormalize(s: string): (r: string)
    ensures !HasNormalizedPrefix(s) ==> r == CamelCase(s)
    ensures |s| >= 2 && s[..2] == "x-" ==> r == CamelCase(s[2..])
  {
    if |s| >= 2 && s[..2] == "x-" then CamelCase(s[2..])
    else if |s| >= 5 && s[..5] == "data-" then CamelCase(s[5..])
    else CamelCase(s)
  }

  /** A scope property, binding or event name whose attribute name reaches
      it again: lodash's word split agrees with splitting at each capital,
      and AngularJS strips no prefix from the kebab-cased name. */
  predicate IsPropertyName(s: string) {
    && |s| > 0
    && IsLower(s[0])
    && (forall i | 0 <= i < |s| :: IsLetter(s[i]))
    && (forall i | 1 <= i < |s| && IsUpper(s[i]) :: !IsUpper(s[i - 1]))
    && !HasNormalizedPrefix(KebabCase(s))
  }

  /** A component name `_.camelCase` and AngularJS both turn into the same
      directive name, and whose directive name `_.kebabCase` turns back into
      it: lower-case words of letters joined by single hyphens, without a
      prefix AngularJS strips, and with no one-letter word between two
      hyphens (lodash reads the capitals of `cs-a-b`, `csAB`, as one word). */
  predicate IsComponentName(s: string) {
    && IsKebabName(s)
    && |s| > 0
    && IsLower(s[0])
    && (forall i | 0 <= i < |s| :: IsLower(s[i]) || s[i] == '-')
    && (forall i | 0 <= i < |s| - 2 && s[i] == '-' :: s[i + 2] != '-')
    && !HasNormalizedPrefix(s)
  }

  lemma {:induction false} CamelOfKebabHyphenless(s: string)
    requires IsIdentifier(s)
    ensures CamelCase(KebabCase(s)) == s
    decreases |s|
  {
    if s != [] {
      var c, t := s[0], s[1..];
      assert s == [c] + t;
      var k := KebabCase(t);
      CamelOfKebabHyphenless(t);
      if IsUpper(c) {
        var w := ['-', Lower(c)] + k;
        assert KebabCase(s) == w;
        assert w[2..] == k;
        assert Upper(Lower(c)) == c;
      } else {
        var w := [c] + k;
        assert KebabCase(s) == w;
        assert w[1..] == k;
      }
    }
  }

  /** Camel-casing the kebab-cased name gives back the property name, and so
      does AngularJS's normalisation of it. */
  lemma CamelOfKebab(s: string)
    requires IsPropertyName(s)
    ensures CamelCase(KebabCase(s)) == s
    ensures DirectiveNormalize(KebabCase(s)) == s
  {
    CamelOfKebabHyphenless(s);
  }

  /** Every suffix of a kebab name is a kebab name. */
  lemma {:induction false} KebabSuffix(s: string, d: nat)
    requires IsKebabName(s)
    requires d <= |s|
    ensures IsKebabName(s[d..])
  {
    var t := s[d..];
    forall i | 0 <= i < |t|
      ensures !IsUpper(t[i]) && (t[i] == '-' ==> i + 1 < |t| && IsLower(t[i + 1]))
    {
      var k := i + d;
      assert t[i] == s[k];
      assert !IsUpper(s[k]) && (s[k] == '-' ==> k + 1 < |s| && IsLower(s[k + 1]));
      if t[i] == '-' {
        assert t[i + 1] == s[k + 1];
      }
    }
  }

  lemma {:induction false} KebabOfCamelWords(s: string)
    requires IsKebabName(s)
    ensures KebabCase(CamelCase(s)) == s
    decreases |s|
  {
    if s != [] {
      assert !IsUpper(s[0]) && (s[0] == '-' ==> 1 < |s| && IsLower(s[1]));
      if s[0] == '-' {
        var t := s[2..];
        KebabSuffix(s, 2);
        KebabOfCamelWords(t);
        var w := [Upper(s[1])] + CamelCase(t);
        assert CamelCase(s) == w;
        assert w[1..] == CamelCase(t);
        assert Lower(Upper(s[1])) == s[1];
        assert s == ['-', s[1]] + t;
      } else {
        var t := s[1..];
        KebabSuffix(s, 1);
        KebabOfCamelWords(t);
        var w := [s[0]] + CamelCase(t);
        assert CamelCase(s) == w;
        assert w[1..] == CamelCase(t);
        assert s == [s[0]] + t;
      }
    }
  }

  /** Kebab-casing the camel-cased component name gives back the component
      name, and AngularJS normalises the tag to the camel-cased name. */
  lemma KebabOfCamel(s: string)
    requires IsComponentName(s)
    ensures KebabCase(CamelCase(s)) == s
    ensures DirectiveNormalize(s) == CamelCase(s)
  {
    KebabOfCamelWords(s);
  }
}

=== FILE: wiring.dfy ===
/**
  What `connectedCallback` derives from the validated options: the element
  that hosts the AngularJS component and the attributes it receives, in
  the order they are set, and the `detail` of the custom event dispatched
  when the component calls one of its event callbacks.
 */
module Wiring {
  import opened Js
  import opened Names
  import opened Decode
  import opened Create

  datatype Attr = Attr(name: string, value: string)

  /** The element the component is compiled on, with its attributes in the
      order `connectedCallback` sets them. */
  datatype ComponentElement = ComponentElement(tag: string, attrs: seq<Attr>)

  /** The bare element: the component's own tag, or the attribute directive's
      element carrying the component name as an attribute. */
  function BaseElement(componentName: string, o: Options): ComponentElement {
    match o.attributeDirective
    case None => ComponentElement(componentName, [])
    case Some(ad) => ComponentElement(ad.element, [Attr(componentName, ad.attributeValue.GetOr(""))])
  }

  /** The listed attributes the custom element carries, copied with their values. */
  function HostAttrs(listed: seq<string>, host: map<string, string>): (r: seq<Attr>)
    ensures |r| <= |listed|
    ensures forall a | a in r :: a.name in listed && a.name in host && a.value == host[a.name]
    ensures forall i | 0 <= i < |listed| && listed[i] in host :: Attr(listed[i], host[listed[i]]) in r
    decreases |listed|
  {
    if listed == [] then []
    else
      var rest := HostAttrs(listed[1..], host);
      assert forall i | 1 <= i < |listed| :: listed[i] == listed[1..][i - 1];
      (if listed[0] in host then [Attr(listed[0], host[listed[0]])] else []) + rest
  }

  function InterpolationAttr(x: string): Attr {
    Attr(KebabCase(x), "{{ vm." + x + " }}")
  }

  function BindingAttr(b: string): Attr {
    Attr(KebabCase(b), "vm." + b)
  }

  function CustomBindingAttr(cb: CustomBinding): Attr {
    Attr(cb.attribute, cb.attributeValue)
  }

  /** The argument each injectable contributes to the callback expression. */
  function ArgumentNames(injectables: seq<Injectable>): (r: seq<string>)
    ensures |r| == |injectables|
    ensures forall i | 0 <= i < |r| ::
              r[i] == if injectables[i].argumentName.Some? then injectables[i].argumentName.value else injectables[i].key
  {
    seq(|injectables|, i requires 0 <= i < |injectables| => injectables[i].argumentName.GetOr(injectables[i].key))
  }

  /** `xs.join(sep)` */
  function Join(xs: seq<string>, sep: string): string
    decreases |xs|
  {
    if xs == [] then ""
    else if |xs| == 1 then xs[0]
    else xs[0] + sep + Join(xs[1..], sep)
  }

  /** Where the `i`-th piece starts in `Join(xs, sep)`: after every earlier
      piece and one separator each. */
  function Offset(xs: seq<string>, sep: string, i: nat): nat
    requires i <= |xs|
    decreases i
  {
    if i == 0 then 0 else |xs[0]| + |sep| + Offset(xs[1..], sep, i - 1)
  }

  lemma SliceAfterPrefix(p: string, t: string, a: nat, b: nat)
    requires a <= b <= |t|
    ensures (p + t)[|p| + a .. |p| + b] == t[a..b]
  {
    assert forall k | 0 <= k < b - a :: (p + t)[|p| + a .. |p| + b][k] == t[a..b][k];
  }

  lemma SliceBeforeSuffix(t: string, q: string, a: nat, b: nat)
    requires a <= b <= |t|
    ensures (t + q)[a..b] == t[a..b]
  {
    assert forall k | 0 <= k < b - a :: (t + q)[a..b][k] == t[a..b][k];
  }

  /** A join of several pieces starts with the first piece and a separator. */
  lemma JoinHead(xs: seq<string>, sep: string)
    requires |xs| > 1
    ensures
      var s := Join(xs, sep);
      && |xs[0]| + |sep| <= |s|
      && s[.. |xs[0]|] == xs[0]
      && s[|xs[0]| .. |xs[0]| + |sep|] == sep
  {
    var t := Join(xs[1..], sep);
    assert Join(xs, sep) == xs[0] + (sep + t);
    SliceBeforeSuffix(xs[0], sep + t, 0, |xs[0]|);
    SliceAfterPrefix(xs[0], sep + t, 0, |sep|);
    SliceBeforeSuffix(sep, t, 0, |sep|);
  }

  /** A piece, and the separator after it or the end of the string, keep
      their place when a prefix is put in front. */
  lemma ShiftPiece(p: string, t: string, k: nat, x: string, sep: string, last: bool)
    requires k + |x| <= |t| && t[k .. k + |x|] == x
    requires !last ==> k + |x| + |sep| <= |t| && t[k + |x| .. k + |x| + |sep|] == sep
    requires last ==> k + |x| == |t|
    ensures |p| + k + |x| <= |p + t| && (p + t)[|p| + k .. |p| + k + |x|] == x
    ensures !last ==> |p| + k + |x| + |sep| <= |p + t| && (p + t)[|p| + k + |x| .. |p| + k + |x| + |sep|] == sep
    ensures last ==> |p| + k + |x| == |p + t|
  {
    SliceAfterPrefix(p, t, k, k + |x|);
    if !last {
      SliceAfterPrefix(p, t, k + |x|, k + |x| + |sep|);
    }
  }

  /** `xs.join(sep)` lays the pieces out in order: the `i`-th piece sits at
      its offset, a separator follows every piece but the last, and the last
      piece ends the string. */
  lemma {:induction false} JoinPositions(xs: seq<string>, sep: string, i: nat)
    requires i < |xs|
    ensures
      var s, k := Join(xs, sep), Offset(xs, sep, i);
      && k + |xs[i]| <= |s|
      && s[k .. k + |xs[i]|] == xs[i]
      && (i + 1 < |xs| ==> k + |xs[i]| + |sep| <= |s| && s[k + |xs[i]| .. k + |xs[i]| + |sep|] == sep)
      && (i + 1 == |xs| ==> k + |xs[i]| == |s|)
    decreases i
  {
    var s := Join(xs, sep);
    if |xs| > 1 {
      var t := Join(xs[1..], sep);
      var p := xs[0] + sep;
      assert s == p + t;
      if i == 0 {
        JoinHead(xs, sep);
      } else {
        JoinPositions(xs[1..], sep, i - 1);
        assert xs[1..][i - 1] == xs[i];
        var k := Offset(xs[1..], sep, i - 1);
        assert Offset(xs, sep, i) == |p| + k;
        ShiftPiece(p, t, k, xs[i], sep, i + 1 == |xs|);
      }
    }
  }

  /** The expression AngularJS evaluates when the component fires the event. */
  function CallbackExpression(e: Event): string {
    "vm." + e.name + "(" + Join(ArgumentNames(e.injectables), ", ") + ")"
  }

  function EventAttr(e: Event): Attr {
    Attr(KebabCase(e.name), CallbackExpression(e))
  }

  function MapAttrs<T>(xs: seq<T>, f: T -> Attr): (r: seq<Attr>)
    ensures |r| == |xs|
    ensures forall i | 0 <= i < |xs| :: r[i] == f(xs[i])
  {
    seq(|xs|, i requires 0 <= i < |xs| => f(xs[i]))
  }

  /** Groups appended one after the other each sit at their own positions. */
  lemma AppendedGroups(g0: seq<Attr>, g1: seq<Attr>, g2: seq<Attr>, g3: seq<Attr>, g4: seq<Attr>, g5: seq<Attr>)
    ensures
      var r := g0 + g1 + g2 + g3 + g4 + g5;
      var n1 := |g0| + |g1|;
      var n2 := n1 + |g2|;
      var n3 := n2 + |g3|;
      var n4 := n3 + |g4|;
      && |r| == n4 + |g5|
      && r[..|g0|] == g0
      && r[|g0| .. n1] == g1
      && r[n1 .. n2] == g2
      && r[n2 .. n3] == g3
      && r[n3 .. n4] == g4
      && r[n4 ..] == g5
  {
    var p1 := g0 + g1;
    var p2 := p1 + g2;
    var p3 := p2 + g3;
    var p4 := p3 + g4;
    var r := p4 + g5;
    assert r[..|p4|] == p4 && r[|p4|..] == g5;
    assert p4[..|p3|] == p3 && p4[|p3|..] == g4;
    assert p3[..|p2|] == p2 && p3[|p2|..] == g3;
    assert p2[..|p1|] == p1 && p2[|p1|..] == g2;
    assert p1[..|g0|] == g0 && p1[|g0|..] == g1;
  }

  /** The attributes of groups laid out one after the other: the host's
      listed attributes from `n0` on, then the interpolations, bindings,
      custom bindings and events. */
  predicate Grouped(s: seq<Attr>, n0: nat, h: seq<Attr>, ins: seq<string>, bs: seq<string>,
                    cbs: seq<CustomBinding>, evs: seq<Event>)
  {
    var n1 := n0 + |h|;
    var n2 := n1 + |ins|;
    var n3 := n2 + |bs|;
    var n4 := n3 + |cbs|;
    && |s| == n4 + |evs|
    && s[n0 .. n1] == h
    && s[n1 .. n2] == MapAttrs(ins, InterpolationAttr)
    && s[n2 .. n3] == MapAttrs(bs, BindingAttr)
    && s[n3 .. n4] == MapAttrs(cbs, CustomBindingAttr)
    && s[n4 ..] == MapAttrs(evs, EventAttr)
  }

  /** The component element after `connectedCallback` has set every attribute. */
  function Wire(componentName: string, o: Options, host: map<string, string>): (e: ComponentElement)
    ensures o.attributeDirective.None? ==> e.tag == componentName
    ensures o.attributeDirective.Some? ==>
              && e.tag == o.attributeDirective.value.element
              && |e.attrs| > 0
              && e.attrs[0] == Attr(componentName, o.attributeDirective.value.attributeValue.GetOr(""))
    // nothing else is set, and each option contributes once per entry
    ensures |e.attrs| ==
              (if o.attributeDirective.Some? then 1 else 0)
              + |HostAttrs(o.attributes.GetOr([]), host)|
              + |o.interpolations.GetOr([])| + |o.bindings.GetOr([])|
              + |o.customBindings.GetOr([])| + |o.events.GetOr([])|
    // in the order they are set: the host's listed attributes, then the
    // interpolations, bindings, custom bindings and events, each group in
    // the order of its option
    ensures Grouped(e.attrs, if o.attributeDirective.Some? then 1 else 0, HostAttrs(o.attributes.GetOr([]), host),
                    o.interpolations.GetOr([]), o.bindings.GetOr([]), o.customBindings.GetOr([]), o.events.GetOr([]))
  {
    var base := BaseElement(componentName, o);
    var hostAttrs := HostAttrs(o.attributes.GetOr([]), host);
    var interpolations := MapAttrs(o.interpolations.GetOr([]), InterpolationAttr);
    var bindings := MapAttrs(o.bindings.GetOr([]), BindingAttr);
    var custom := MapAttrs(o.customBindings.GetOr([]), CustomBindingAttr);
    var events := MapAttrs(o.events.GetOr([]), EventAttr);
    AppendedGroups(base.attrs, hostAttrs, interpolations, bindings, custom, events);
    var attrs := base.attrs + hostAttrs + interpolations + bindings + custom + events;
    ComponentElement(base.tag, attrs)
  }

  /** The elements of a slice are exactly the elements of the whole
      sequence at the slice's positions. */
  lemma SliceElements(s: seq<Attr>, lo: nat, t: seq<Attr>)
    requires lo + |t| <= |s| && s[lo .. lo + |t|] == t
    ensures forall a | a in t :: a in s
    ensures forall k | lo <= k < lo + |t| :: s[k] in t
  {
    forall a | a in t ensures a in s {
      var j :| 0 <= j < |t| && t[j] == a;
      assert s[lo + j] == a;
    }
    forall k | lo <= k < lo + |t| ensures s[k] in t {
      assert t[k - lo] == s[k];
    }
  }

  /** An attribute comes from an entry exactly when it is one of the mapped attributes. */
  lemma MapAttrsElements<T>(xs: seq<T>, f: T -> Attr)
    ensures forall x | x in xs :: f(x) in MapAttrs(xs, f)
    ensures forall a | a in MapAttrs(xs, f) :: exists x | x in xs :: a == f(x)
  {
    var r := MapAttrs(xs, f);
    forall x | x in xs ensures f(x) in r {
      var j :| 0 <= j < |xs| && xs[j] == x;
      assert r[j] == f(x);
    }
    forall a | a in r ensures exists x | x in xs :: a == f(x) {
      var j :| 0 <= j < |r| && r[j] == a;
      assert xs[j] in xs;
    }
  }

  /** Every entry of every group is set. */
  lemma GroupedContains(s: seq<Attr>, n0: nat, h: seq<Attr>, ins: seq<string>, bs: seq<string>,
                        cbs: seq<CustomBinding>, evs: seq<Event>)
    requires Grouped(s, n0, h, ins, bs, cbs, evs)
    ensures forall a | a in h :: a in s
    ensures forall x | x in ins :: InterpolationAttr(x) in s
    ensures forall b | b in bs :: BindingAttr(b) in s
    ensures forall cb | cb in cbs :: CustomBindingAttr(cb) in s
    ensures forall ev | ev in evs :: EventAttr(ev) in s
  {
    var n1 := n0 + |h|;
    var n2 := n1 + |ins|;
    var n3 := n2 + |bs|;
    var n4 := n3 + |cbs|;
    SliceElements(s, n0, h);
    SliceElements(s, n1, MapAttrs(ins, InterpolationAttr));
    SliceElements(s, n2, MapAttrs(bs, BindingAttr));
    SliceElements(s, n3, MapAttrs(cbs, CustomBindingAttr));
    assert s[n4 .. n4 + |evs|] == s[n4 ..];
    SliceElements(s, n4, MapAttrs(evs, EventAttr));
    MapAttrsElements(ins, InterpolationAttr);
    MapAttrsElements(bs, BindingAttr);
    MapAttrsElements(cbs, CustomBindingAttr);
    MapAttrsElements(evs, EventAttr);
  }

  /** Nothing but the first `n0` attributes and the groups' entries is set. */
  lemma GroupedComesFrom(s: seq<Attr>, n0: nat, h: seq<Attr>, ins: seq<string>, bs: seq<string>,
                         cbs: seq<CustomBinding>, evs: seq<Event>)
    requires Grouped(s, n0, h, ins, bs, cbs, evs)
    ensures forall a | a in s ::
              || (exists k | 0 <= k < n0 :: s[k] == a)
              || a in h
              || (exists x | x in ins :: a == InterpolationAttr(x))
              || (exists b | b in bs :: a == BindingAttr(b))
              || (exists cb | cb in cbs :: a == CustomBindingAttr(cb))
              || (exists ev | ev in evs :: a == EventAttr(ev))
  {
    var n1 := n0 + |h|;
    var n2 := n1 + |ins|;
    var n3 := n2 + |bs|;
    var n4 := n3 + |cbs|;
    SliceElements(s, n0, h);
    SliceElements(s, n1, MapAttrs(ins, InterpolationAttr));
    SliceElements(s, n2, MapAttrs(bs, BindingAttr));
    SliceElements(s, n3, MapAttrs(cbs, CustomBindingAttr));
    assert s[n4 .. n4 + |evs|] == s[n4 ..];
    SliceElements(s, n4, MapAttrs(evs, EventAttr));
    MapAttrsElements(ins, InterpolationAttr);
    MapAttrsElements(bs, BindingAttr);
    MapAttrsElements(cbs, CustomBindingAttr);
    MapAttrsElements(evs, EventAttr);
    forall a | a in s
      ensures || (exists k | 0 <= k < n0 :: s[k] == a)
              || a in h
              || (exists x | x in ins :: a == InterpolationAttr(x))
              || (exists b | b in bs :: a == BindingAttr(b))
              || (exists cb | cb in cbs :: a == CustomBindingAttr(cb))
              || (exists ev | ev in evs :: a == EventAttr(ev))
    {
      var k :| 0 <= k < |s| && s[k] == a;
    }
  }


  /** Every listed attribute the host carries, and every interpolation,
      binding, custom binding and event, is set on the element. */
  lemma WireSetsEveryOption(componentName: string, o: Options, host: map<string, string>)
    ensures var e := Wire(componentName, o, host);
      && (forall name | name in o.attributes.GetOr([]) && name in host :: Attr(name, host[name]) in e.attrs)
      && (forall x | x in o.interpolations.GetOr([]) :: InterpolationAttr(x) in e.attrs)
      && (forall b | b in o.bindings.GetOr([]) :: BindingAttr(b) in e.attrs)
      && (forall cb | cb in o.customBindings.GetOr([]) :: CustomBindingAttr(cb) in e.attrs)
      && (forall ev | ev in o.events.GetOr([]) :: EventAttr(ev) in e.attrs)
  {
    GroupedContains(Wire(componentName, o, host).attrs, if o.attributeDirective.Some? then 1 else 0,
                    HostAttrs(o.attributes.GetOr([]), host), o.interpolations.GetOr([]), o.bindings.GetOr([]),
                    o.customBindings.GetOr([]), o.events.GetOr([]));
  }

  /** Nothing else is set: every attribute of the element is the directive
      attribute, a listed host attribute, or comes from one interpolation,
      binding, custom binding or event. */
  lemma WireSetsNothingElse(componentName: string, o: Options, host: map<string, string>)
    ensures forall a | a in Wire(componentName, o, host).attrs ::
              || (o.attributeDirective.Some? && a.name == componentName)
              || (a.name in o.attributes.GetOr([]) && a.name in host && a.value == host[a.name])
              || (exists x | x in o.interpolations.GetOr([]) :: a == InterpolationAttr(x))
              || (exists b | b in o.bindings.GetOr([]) :: a == BindingAttr(b))
              || (exists cb | cb in o.customBindings.GetOr([]) :: a == CustomBindingAttr(cb))
              || (exists ev | ev in o.events.GetOr([]) :: a == EventAttr(ev))
  {
    var e := Wire(componentName, o, host);
    var n0 := if o.attributeDirective.Some? then 1 else 0;
    var h := HostAttrs(o.attributes.GetOr([]), host);
    var ins, bs := o.interpolations.GetOr([]), o.bindings.GetOr([]);
    var cbs, evs := o.customBindings.GetOr([]), o.events.GetOr([]);
    GroupedComesFrom(e.attrs, n0, h, ins, bs, cbs, evs);
    forall a | a in e.attrs
      ensures || (o.attributeDirective.Some? && a.name == componentName)
              || (a.name in o.attributes.GetOr([]) && a.name in host && a.value == host[a.name])
              || (exists x | x in ins :: a == InterpolationAttr(x))
              || (exists b | b in bs :: a == BindingAttr(b))
              || (exists cb | cb in cbs :: a == CustomBindingAttr(cb))
              || (exists ev | ev in evs :: a == EventAttr(ev))
    {
      if exists k | 0 <= k < n0 :: e.attrs[k] == a {
        var k :| 0 <= k < n0 && e.attrs[k] == a;
        assert k == 0 && o.attributeDirective.Some?;
      } else if a in h {
        assert a.name in o.attributes.GetOr([]) && a.name in host && a.value == host[a.name];
      }
    }
  }






  /** Every interpolation, binding and event of a component reaches it: the
      wired element carries an attribute that AngularJS normalises back to
      the property's own name. */
  lemma WiredPropertiesResolve(componentName: string, o: Options, host: map<string, string>, x: string)
    requires IsPropertyName(x)
    requires x in o.interpolations.GetOr([]) || x in o.bindings.GetOr([])
             || exists ev | ev in o.events.GetOr([]) :: ev.name == x
    ensures exists a | a in Wire(componentName, o, host).attrs :: DirectiveNormalize(a.name) == x
  {
    GeneratedNamesResolve(x);
    var attrs := Wire(componentName, o, host).attrs;
    if x in o.interpolations.GetOr([]) {
      assert InterpolationAttr(x) in attrs;
    } else if x in o.bindings.GetOr([]) {
      assert BindingAttr(x) in attrs;
    } else {
      var ev :| ev in o.events.GetOr([]) && ev.name == x;
      assert EventAttr(ev) in attrs;
    }
  }

  /** AngularJS matches an attribute to a binding by normalising its name:
      the attributes generated for interpolations, bindings and events all
      reach the property they were generated from. */
  lemma GeneratedNamesResolve(x: string)
    requires IsPropertyName(x)
    ensures DirectiveNormalize(InterpolationAttr(x).name) == x
    ensures DirectiveNormalize(BindingAttr(x).name) == x
    ensures forall injectables :: DirectiveNormalize(EventAttr(Event(x, injectables)).name) == x
  {
    CamelOfKebab(x);
  }

  /** `JoinPositions` inside a bracketing prefix and closing parenthesis. */
  lemma {:induction false} WrappedJoinPositions(pre: string, xs: seq<string>, sep: string, i: nat)
    requires i < |xs|
    ensures
      var c, k := pre + Join(xs, sep) + ")", |pre| + Offset(xs, sep, i);
      && c[..|pre|] == pre
      && c[|c| - 1] == ')'
      && k + |xs[i]| < |c|
      && c[k .. k + |xs[i]|] == xs[i]
      && (i + 1 < |xs| ==> k + |xs[i]| + |sep| < |c| && c[k + |xs[i]| .. k + |xs[i]| + |sep|] == sep)
      && (i + 1 == |xs| ==> k + |xs[i]| == |c| - 1)
  {
    var j := Join(xs, sep);
    var w := j + ")";
    assert pre + j + ")" == pre + w;
    assert (pre + w)[..|pre|] == pre;
    JoinPositions(xs, sep, i);
    var k := Offset(xs, sep, i);
    SliceBeforeSuffix(j, ")", k, k + |xs[i]|);
    SliceAfterPrefix(pre, w, k, k + |xs[i]|);
    if i + 1 < |xs| {
      SliceBeforeSuffix(j, ")", k + |xs[i]|, k + |xs[i]| + |sep|);
      SliceAfterPrefix(pre, w, k + |xs[i]|, k + |xs[i]| + |sep|);
    }
  }

  /** For any number of injectables, the callback expression is
      `vm.<event>(` followed by the argument names in order, separated by
      `, `, and a closing parenthesis. */
  lemma CallbackListsArguments(e: Event, i: nat)
    requires i < |e.injectables|
    ensures
      var c, names, pre := CallbackExpression(e), ArgumentNames(e.injectables), "vm." + e.name + "(";
      var k := |pre| + Offset(names, ", ", i);
      && c[..|pre|] == pre
      && c[|c| - 1] == ')'
      && k + |names[i]| < |c|
      && c[k .. k + |names[i]|] == names[i]
      && (i + 1 < |names| ==> k + |names[i]| + 2 < |c| && c[k + |names[i]| .. k + |names[i]| + 2] == ", ")
      && (i + 1 == |names| ==> k + |names[i]| == |c| - 1)
  {
    WrappedJoinPositions("vm." + e.name + "(", ArgumentNames(e.injectables), ", ", i);
  }

  /** An event without injectables gets a callback without arguments. */
  lemma CallbackWithoutArguments(e: Event)
    ensures |e.injectables| == 0 ==> CallbackExpression(e) == "vm." + e.name + "()"
  {
  }

  /** Each argument of the callback, against the raw event object: a custom
      injectable's `argumentName`, otherwise the injectable's own key. */
  lemma EventArgumentNames(p: Prop)
    requires CheckEvent(p).Ok?
    ensures
      var names, ps := ArgumentNames(CheckEvent(p).value.injectables), p.value.props;
      && |names| == |ps|
      && forall i | 0 <= i < |ps| ::
           names[i] == if IsPlainObject(ps[i].value) then Get(ps[i].value, "argumentName").s else ps[i].key
  {
  }

  /** The callback expression passes one argument per injectable, in order. */
  lemma EventArguments(e: Event)
    requires |e.injectables| == 2
    ensures CallbackExpression(e) ==
              "vm." + e.name + "(" + ArgumentNames(e.injectables)[0] + ", " + ArgumentNames(e.injectables)[1] + ")"
  {
    var names := ArgumentNames(e.injectables);
    assert Join(names[1..], ", ") == names[1];
    assert Join(names, ", ") == names[0] + ", " + names[1];
  }

  // ---------------------------------------------------------------------
  // Event detail

  /** Elm has no `undefined`: it is sent as `null`. */
  function NullForUndefined(v: JsValue): (r: JsValue)
    ensures r != Undefined
    ensures v == Undefined ==> r == Null
    ensures v != Undefined ==> r == v
  {
    if v == Undefined then Null else v
  }

  /** The encoded value of the injectable at position `i`. */
  function Encoded(rt: UserCode, injectables: seq<Injectable>, args: seq<JsValue>, i: nat): Result<JsValue>
    requires i < |injectables|
  {
    Call(rt, injectables[i].encode, [Arg(args, i)])
  }

  /** The `detail` of the event dispatched when the component calls the
      event callback with `args`: one property per injectable, in order. */
  function Detail(rt: UserCode, injectables: seq<Injectable>, args: seq<JsValue>): (r: Result<seq<Prop>>)
    ensures r.Ok? <==> forall i | 0 <= i < |injectables| :: Encoded(rt, injectables, args, i).Ok?
    ensures r.Ok? ==>
              && |r.value| == |injectables|
              && forall i | 0 <= i < |injectables| ::
                   r.value[i] == Prop(injectables[i].key, NullForUndefined(Encoded(rt, injectables, args, i).value))
    ensures r.Err? ==>
              exists i | 0 <= i < |injectables| ::
                && Encoded(rt, injectables, args, i) == Err(r.error)
                && forall j | 0 <= j < i :: Encoded(rt, injectables, args, j).Ok?
    decreases |injectables|
  {
    if injectables == [] then Ok([])
    else
      var n := |injectables| - 1;
      var front := Detail(rt, injectables[..n], args);
      assert forall j | 0 <= j < n :: Encoded(rt, injectables[..n], args, j) == Encoded(rt, injectables, args, j);
      if front.Err? then Err(front.error)
      else
        match Encoded(rt, injectables, args, n)
        case Err(e) => Err(e)
        case Ok(v) => Ok(front.value + [Prop(injectables[n].key, NullForUndefined(v))])
  }

  /** The detail never carries `undefined` and its keys are the injectables', in order. */
  lemma DetailShape(rt: UserCode, injectables: seq<Injectable>, args: seq<JsValue>)
    requires Detail(rt, injectables, args).Ok?
    ensures Keys(Detail(rt, injectables, args).value) == seq(|injectables|, i requires 0 <= i < |injectables| => injectables[i].key)
    ensures forall i | 0 <= i < |injectables| :: Detail(rt, injectables, args).value[i].value != Undefined
  {
  }

  /** The detail depends on the arguments only at the injectables' positions. */
  lemma {:induction false} DetailReadsDeclaredPositions(rt: UserCode, injectables: seq<Injectable>, a: seq<JsValue>, b: seq<JsValue>)
    requires forall i | 0 <= i < |injectables| :: Arg(a, i) == Arg(b, i)
    ensures Detail(rt, injectables, a) == Detail(rt, injectables, b)
    decreases |injectables|
  {
    if injectables != [] {
      var n := |injectables| - 1;
      DetailReadsDeclaredPositions(rt, injectables[..n], a, b);
      assert Arg(a, n) == Arg(b, n);
      assert Encoded(rt, injectables, a, n) == Encoded(rt, injectables, b, n);
    }
  }

  /** Arguments beyond the injectables are ignored. */
  lemma ExtraArgumentsIgnored(rt: UserCode, injectables: seq<Injectable>, args: seq<JsValue>, extra: seq<JsValue>)
    requires |injectables| <= |args|
    ensures Detail(rt, injectables, args + extra) == Detail(rt, injectables, args)
  {
    DetailReadsDeclaredPositions(rt, injectables, args + extra, args);
  }

  /** A missing argument is the same as an explicit `undefined`. */
  lemma MissingArgumentIsUndefined(rt: UserCode, injectables: seq<Injectable>, args: seq<JsValue>)
    ensures Detail(rt, injectables, args + [Undefined]) == Detail(rt, injectables, args)
  {
    DetailReadsDeclaredPositions(rt, injectables, args + [Undefined], args);
  }

  /** With `encode.identity` everywhere the detail is the arguments, `undefined` sent as `null`. */
  lemma IdentityDetail(rt: UserCode, injectables: seq<Injectable>, args: seq<JsValue>)
    requires forall i | 0 <= i < |injectables| :: injectables[i].encode == EncodeIdentity
    ensures Detail(rt, injectables, args).Ok?
    ensures forall i | 0 <= i < |injectables| ::
              Detail(rt, injectables, args).value[i] == Prop(injectables[i].key, NullForUndefined(Arg(args, i)))
  {
  }

  // ---------------------------------------------------------------------
  // Examples from the service's tests

  /** The injectables of `csOnChange`: `model` passed by name, `otherValue`
      under its own argument name, both encoded with `encode.identity`. */
  function OnChangeInjectables(): seq<Injectable> {
    [Injectable("model", EncodeIdentity, None), Injectable("otherValue", EncodeIdentity, Some("vm.otherValue"))]
  }

  /** An event with one plain and one custom injectable, as `csOnChange` with
      `model` and `otherValue`: the plain one is passed by its key, the custom
      one by its argument name (`vm.csOnChange(model, vm.otherValue)`). */
  lemma MixedInjectablesCallback(name: string, key: string, encode: JsFunction,
                                 customKey: string, customEncode: JsFunction, argumentName: string)
    ensures CallbackExpression(Event(name, [Injectable(key, encode, None), Injectable(customKey, customEncode, Some(argumentName))]))
            == "vm." + name + "(" + key + ", " + argumentName + ")"
  {
    var e := Event(name, [Injectable(key, encode, None), Injectable(customKey, customEncode, Some(argumentName))]);
    EventArguments(e);
  }

  /** Called with one argument the detail sends `otherValue` as `null`; called
      with five, the three extra ones are dropped. */
  lemma OnChangeDetailExample(rt: UserCode, value: JsValue, other: JsValue, extra: seq<JsValue>)
    requires value != Undefined && other != Undefined
    ensures Detail(rt, OnChangeInjectables(), [value]) == Ok([Prop("model", value), Prop("otherValue", Null)])
    ensures Detail(rt, OnChangeInjectables(), [value, other] + extra) == Ok([Prop("model", value), Prop("otherValue", other)])
  {
    var injectables := OnChangeInjectables();
    IdentityDetail(rt, injectables, [value]);
    var d1 := Detail(rt, injectables, [value]).value;
    assert d1[0] == Prop("model", value) && d1[1] == Prop("otherValue", Null);
    assert d1 == [Prop("model", value), Prop("otherValue", Null)];
    ExtraArgumentsIgnored(rt, injectables, [value, other], extra);
    IdentityDetail(rt, injectables, [value, other]);
    var d2 := Detail(rt, injectables, [value, other]).value;
    assert d2[0] == Prop("model", value) && d2[1] == Prop("otherValue", other);
    assert d2 == [Prop("model", value), Prop("otherValue", other)];
  }
}
